=== FILE: README.md ===
# KoboMail, modelled in Dafny

KoboMail runs on a Kobo e-reader. It logs in to an IMAP mailbox and searches
for the messages meant for the reader: unseen ones if so configured, and ones
tagged either with a "+flag" sub-address or with a flag word in the subject.
It saves every attachment whose extension is on the allow-list into the
library folder, renaming `.kepub` files to `.kepub.epub`. It can flag the
processed messages `\Deleted`. Finally it makes Nickel, the reader's UI, pick
up the new books. With NickelDbus it asks for a library rescan over D-Bus and
shows dialogs. Without NickelDbus it simulates plugging a USB cable in and out.

The model covers the following parts:

- the message wrapper and attachment extractor (`Attachments`);
- the IMAP connection with its dial retries, collection and deletion (`Session`);
- the search criteria (`Search`);
- the NickelDbus library rescan (`NickelDbus`);
- the integration prerequisites: NickelDbus probe, udev rules, NickelMenu entry (`Prerequisites`);
- the main run with its dialogs, message loop and completion step (`KoboMail`);
- the legacy entry point's string switches, criteria and completion (`Legacy`);
- the udev rules file (`Udev`);
- the log level setting (`Logging`).

Effects are not performed. They are recorded in order, as a trace of `Effect`
values (`Effects`): dialogs, file writes, STORE commands, the rescan request,
the hardware-status pipe writes and the logout. The environment supplies
everything that would come from outside:

- the dial outcomes;
- the login and select errors;
- the search result and the fetched bodies;
- the unwritable paths;
- the STORE errors;
- the rescan error.

Go's `logger.Fatalw` ends the process without running deferred calls. The model
represents it as a `Fatal` exit whose trace has no `Logout`. A Go panic
(indexing an empty From list) is a `Crashed` exit. A panic unwinds through
`defer imapConnection.Logout()`, so a crashed trace still ends with `Logout`.

A header's From list follows `AddressList`: it is either the parsed addresses
or the parse error, with no addresses. The date and subject are the values the
accessors return, and their errors are dropped as the source drops them.

## Model

| member | source | states |
|---|---|---|
| `Attachments.GetMessageReader` | pkg/imap/message.go:27-44 | The cached reader is returned as is. Otherwise the result is the body's parsed reader or its parse error, cached only on success. A missing body is the NoBody error, and a failure leaves the message unchanged. |
| `Attachments.ReaderCreatedOnce` | pkg/imap/message.go:27-44 | After a successful access, a second access returns the same reader and changes nothing. |
| `Attachments.NoBodyLeavesCacheUnset` | pkg/imap/message.go:32-35 | Without a body section the cache stays empty, and retrying gives the same failure. |
| `Attachments.FetchDetails` | pkg/imap/message.go:46-60 | A reader error is returned as NoBody or Unparsable, with the message unchanged. The call succeeds exactly when the reader opens and the From list has an address. An empty or unparsable From list is the index panic. On success, date, sender and subject come from the header and the first From address. |
| `Attachments.FromParseErrorPanics` | pkg/imap/message.go:52-56 | A From list that fails to parse leaves no address to index, so the call panics, while the date is still taken. |
| `Attachments.ExtensionIsTextAfterLastDot` | pkg/imap/message.go:83 | The trimmed extension is the text after the last dot of the final path element. |
| `Attachments.ExtensionEmptyWithoutDot` | pkg/imap/message.go:83 | A final path element without a dot has the empty extension. |
| `Attachments.ExtensionEdgeCases` | pkg/imap/message.go:83 | A name ending in '.' has the empty extension. Appending '.' and a dot-free, slash-free x gives extension x. |
| `Attachments.ContainsFiletype` | pkg/imap/message.go:109-117 | Membership of the item in the set built from the list. |
| `Attachments.ContainsFiletypeIgnoresOrderAndDuplicates` | pkg/imap/message.go:109-117 | Lists with the same elements give the same answer, whatever their order and repetitions. |
| `Attachments.ContainsFiletypeIsCaseSensitive` | pkg/imap/message.go:115 | "EPUB" is not matched by "epub", since the lookup is exact. |
| `Attachments.WantedExactlyAllowed` | pkg/imap/message.go:79-102 | A part is saved if and only if it is an attachment whose extension is allowed. It is saved under the library path, with `.epub` appended to kepub names. |
| `Attachments.KepubRenamed` | pkg/imap/message.go:88-90 | A `.kepub` attachment is written as `<name>.kepub.epub`. |
| `Attachments.WalkParts` | pkg/imap/message.go:71-104 | The part loop succeeds exactly when every part reads and every wanted file is writable, and then it writes exactly the wanted files and counts them. Any error gives count 0, and no write ever goes to an unwritable path. |
| `Attachments.ProcessAttachments` | pkg/imap/message.go:62-107 | Any failure returns count 0, and a reader failure writes nothing. The call succeeds exactly when every part reads and every wanted file is writable. On success exactly the allowed attachments are written, in part order, and counted. With a reader, the writes and the failure are those of the part walk, so files written before a failure are still reported. Every write is a wanted file. The cached reader is left consumed. |
| `Attachments.SecondExtractionWritesNothing` | pkg/imap/message.go:63-72 | The cached reader has been consumed, so a second extraction writes nothing and counts 0. |
| `Attachments.PartialWritesStay` | pkg/imap/message.go:96-99 | A write failure returns count 0, yet the files written before it stay on disk. |
| `Attachments.FailedWalkKeepsEarlierWrites` | pkg/imap/message.go:71-104 | When the loop fails at some part, the files written are exactly the wanted files of the parts before it, and the remaining parts are untouched. |
| `Session.Connect` | pkg/imap/connection.go:31-47 | One dial and at most three retries, stopping at the first success. The error is the last dial's error. Success happens exactly when some dial within the bound succeeds. |
| `Session.ConnectToServer` | pkg/imap/connection.go:55-66 | The connection keeps host and port and starts with empty search criteria. It fails exactly when every dial fails. |
| `Session.CollectMessages` | pkg/imap/connection.go:85-115 | A search error is returned with no fetch. Otherwise every non-nil delivered message is wrapped, uncached and in order, and the fetch error is ignored. |
| `Session.KeepDelivered` | pkg/imap/connection.go:103-112 | Every delivered message is kept, uncached, and nothing undelivered appears. Without nils the result matches the deliveries one to one, in order. |
| `Session.NilDeliveriesDropped` | pkg/imap/connection.go:104-111 | A nil delivery anywhere in the stream makes no difference. |
| `Session.DeleteMessage` | pkg/imap/connection.go:118-134 | A nil message is a no-op. Otherwise one STORE of `\Deleted` on its sequence number is issued. Only that message's flags change, and on error nothing changes. |
| `Search.NewSearchCriteria` | pkg/imap/connection.go:50 | Fresh criteria exclude no flags and match no header. |
| `Search.WithFlagCriteria` | internal/kobomail/main.go:199-209 | `\Seen` is excluded when unseen mail is asked for. "plus" matches the tagged address in TO, "subject" matches the flag in SUBJECT, and any other type adds nothing. |
| `Search.TaggedAddressInsertsTag` | internal/kobomail/main.go:204 | "+flag" is inserted just before the first '@'. |
| `Search.TaggedAddressWithoutAt` | internal/kobomail/main.go:204 | A user without '@' is left unchanged. |
| `Search.RemovingTagRestoresUser` | internal/kobomail/main.go:204 | Cutting the inserted tag back out gives the user name again. |
| `Search.MatchersMutuallyExclusive` | internal/kobomail/main.go:203-209 | At most one header matcher is added, never both TO and SUBJECT. |
| `NickelDbus.ScanMethod` | pkg/nickeldbus/library.go:29-32 | The full rescan method is used exactly when a full scan is asked for. |
| `NickelDbus.IsDoneProcessingSignal` | pkg/nickeldbus/library.go:54-59 | The signal is valid exactly for the done-processing name, and an error is returned exactly when it is not. |
| `NickelDbus.LibraryRescan` | pkg/nickeldbus/library.go:13-52 | A failed subscription ends the call before the trigger. Otherwise the call succeeds exactly when a done signal arrives before the deadline, and it times out exactly when nothing arrives in time, having waited the full deadline. A first signal of another name gives the wrapped `isDoneProcessingSignal` error. |
| `NickelDbus.OnlyFirstEventDecides` | pkg/nickeldbus/library.go:40-50 | Once a signal has won the select, later arrivals make no difference. |
| `NickelDbus.SubscribeBeforeTrigger` | pkg/nickeldbus/library.go:19-36 | The subscription is made before the scan is invoked. |
| `Prerequisites.PrepareNickelDbusIntegration` | internal/kobomail/main.go:46-70 | NickelDbus is used exactly when installed. A version read error is returned. A version mismatch only warns. |
| `Prerequisites.PrepareNickelMenuIntegration` | internal/kobomail/main.go:72-92 | After success the menu entry exists exactly when NickelMenu is installed and an entry is wanted. A failure changes nothing. |
| `Prerequisites.PrepareWifiTrigger` | internal/kobomail/main.go:94-118 | After success the rules file exists exactly when running on Wi-Fi connect. Manual mode without NickelMenu fails with no change. |
| `Prerequisites.PreparePrerequisites` | internal/kobomail/main.go:121-134 | The three steps run in order and stop at the first error. A NickelDbus version error returns the files untouched. A Wi-Fi trigger error returns that step's files and error, and the menu step does not run. A success leaves the files as the settings ask. |
| `Prerequisites.PreparePrerequisitesIdempotent` | internal/kobomail/main.go:121-134 | Preparing again after a success changes nothing and cannot fail. |
| `Prerequisites.LegacyPreparePrerequisites` | kobomail.go:30-77 | In auto mode the rules are deployed and the menu entry is removed when NickelMenu is installed. In manual mode the entry is deployed and the rules are removed, or the call fails without NickelMenu. Any other type does nothing. |
| `Prerequisites.LegacyUseNickelDbus` | kobomail.go:87-104 | The legacy entry point uses NickelDbus only when it is installed at exactly the desired version. A version read error is fatal. |
| `Prerequisites.GatesDiffer` | kobomail.go:87-104 | The two versions disagree exactly on an installed NickelDbus of another version. |
| `KoboMail.ShowDialog` | internal/kobomail/main.go:136-145 | A dialog appears exactly when NickelDbus is used and notifications are on. It starts with the creation, and the OK button appears exactly when asked for. |
| `KoboMail.UpdateDialog` | internal/kobomail/main.go:147-156 | The same gate as ShowDialog, starting with an update of the body. |
| `KoboMail.ProcessMessage` | internal/kobomail/main.go:231-258 | A message passes exactly when details, extraction and (if deleting) the STORE succeed, adding its attachment count. Aborts carry a loop notice. The message panics exactly when its From list gives no sender. A passing message's effects are exactly its wanted attachments' writes, in part order, then its own STORE when deleting. With delete off the mailbox is untouched. With delete on this message's flag set becomes exactly its old set plus `\Deleted`, and every other message keeps its flags. |
| `KoboMail.ProcessMessages` | internal/kobomail/main.go:231-258 | The loop does only mail work and never removes a message. It stops with a loop notice, or with a panic when some message has no sender. It stores nothing unless deleting, and messages outside the batch keep their flags. Where it stops inside the batch is stated by `KoboMail.LoopStopsAtFirstFailure`. |
| `KoboMail.LoopCompletesIffAllHealthy` | internal/kobomail/main.go:229-258 | The loop finishes exactly when every message passes. Its total is then the sum of the attachment counts, and its effects are each message's writes and STORE, message after message. |
| `KoboMail.LoopStopsAtFirstFailure` | internal/kobomail/main.go:229-258 | The loop stops at the first message that does not pass, with that message's own stop. Its effects are the earlier messages' writes and STOREs followed by the failing message's own effects. No later message is stored or has its flags changed. |
| `KoboMail.LoopDeletesEveryMessage` | internal/kobomail/main.go:249-257 | When deleting, a finished loop has stored every message's sequence number once, in order. |
| `KoboMail.EveryBookProcessed` | internal/kobomail/main.go:229-258 | Messages that each carry one allowed attachment give a total equal to the number of messages, and every one is deleted when deleting. |
| `Effects.HotplugSimulation` | internal/kobomail/main.go:27-44 | The simulated cable writes "usb plug add" to the hardware-status pipe, waits ten seconds, then writes "usb plug remove". |
| `KoboMail.Complete` | internal/kobomail/main.go:260-281 | The rescan, with the corrected thirty-second timeout, happens exactly with books and NickelDbus. The simulated cable happens exactly with books and no NickelDbus. Dialogs follow the gate. |
| `KoboMail.FailedMessageKeepsWrites` | pkg/imap/message.go:94-99 | A message whose part walk fails at part k stops the loop with the attachment notice, and its trace holds exactly the files the parts before k call for. |
| `KoboMail.StoreAfterWrites` | internal/kobomail/main.go:240-257 | Every effect but the last is a write. A passing message writes exactly its wanted attachments, one per counted attachment, and when deleting its STORE comes last. |
| `KoboMail.RescanErrorOnlyLogged` | internal/kobomail/main.go:263-267 | A rescan error changes nothing that follows. |
| `KoboMail.Completion` | internal/kobomail/main.go:260-282 | A completed run reports the total. Its trace is the completion step (with the rescan's actual outcome) followed by the deferred logout. The rescan uses the corrected timeout. |
| `KoboMail.RunMessages` | internal/kobomail/main.go:217-282 | No messages means an early exit. The run completes exactly when every message passes, with the summed total and every message deleted when deleting. A completed run ends with the completion step and the logout, so with books there is exactly one rescan (with NickelDbus) or the cable simulation (without it). Otherwise it is a fatal exit with a loop notice, or a crash on an empty or unparsable From list, which still logs out. |
| `KoboMail.RunSession` | internal/kobomail/main.go:181-282 | Login and select failures are fatal with their notices. The search is issued with the configured criteria. Every run keeps the gating rule. The rescan happens exactly on a completed run with books and NickelDbus, and the cable simulation exactly on one with books and without NickelDbus. The deferred logout happens exactly when the run completes or panics. |
| `KoboMail.Run` | internal/kobomail/main.go:159-282 | The gated starting dialog comes first. The run is a fatal connect failure exactly when every dial fails. Every outcome keeps the gating and STORE rules. The rescan happens exactly on a completed run with books and NickelDbus, and the cable simulation exactly on one with books and no NickelDbus. The run logs out exactly when it completes or panics. |
| `KoboMail.AsWrittenRescanTimeoutExceedsEightHours` | internal/kobomail/main.go:263 | With 30000 passed as seconds, a lost done signal holds the run for over eight hours. |
| `KoboMail.RescanTimeoutIsThirtySeconds` | pkg/nickeldbus/library.go:40-50 | With the intended 30 the wait ends after thirty seconds, and a timely signal still succeeds. |
| `Legacy.OnlyExactTrueEnables` | kobomail.go:161 | A string switch is on only for exactly "true". |
| `Legacy.LegacyCriteria` | kobomail.go:161-170 | The legacy search excludes `\Seen` for "true" and adds at most one header matcher. |
| `Legacy.LegacySearchMatchesCurrent` | kobomail.go:161-170 | The legacy and the current criteria coincide once the switch is read as a boolean. |
| `Legacy.LegacyProcessing` | kobomail.go:211 | Deletion is on exactly for the string "true". |
| `Legacy.NoDeleteUnlessTrue` | kobomail.go:211-218 | Any other delete switch leaves the mailbox untouched and issues no STORE. |
| `Legacy.LegacyComplete` | kobomail.go:221-247 | With NickelDbus there is a full rescan for books and always a closing dialog. Without it there is the cable simulation for books and no dialog. |
| `Legacy.CompletionsAgree` | kobomail.go:221-247 | With notifications on, the current and the legacy completion give the same dialogs and cable and differ only in the rescan request. |
| `Udev.GenerateFile` | pkg/udev/rules.go:8-10 | The file always ends in a newline. No rules gives a lone newline, and one rule gives that rule and a newline. |
| `Udev.SplitRecoversRules` | pkg/udev/rules.go:8-10 | Splitting the file at newlines gives the single-line rules back, followed by the empty tail. |
| `Udev.LineCount` | pkg/udev/rules.go:8-10 | The file holds one newline per rule, and a lone newline for no rules. |
| `Udev.FilesConcatenate` | pkg/udev/rules.go:8-10 | The file of two non-empty rule lists is the two files one after the other. |
| `Udev.AsWrittenEthernetRuleUnterminated` | pkg/udev/main.go:13-14 | As written, the Ethernet rule's RUN value lacks its closing quote, unlike the Wi-Fi rule. |
| `Udev.CorrectedRulesTerminated` | pkg/udev/main.go:12-16 | The corrected rules are all terminated and differ only in that quote. |
| `Logging.LoglevelToZapLevel` | internal/logging/main.go:23-33 | "debug", "error" and "warn" in any letter case select their level, and everything else selects Info. |
| `Logging.LevelIgnoresCase` | internal/logging/main.go:24 | Lower-casing the setting first changes nothing. |
| `Logging.NamesMatchInAnyCase` | internal/logging/main.go:24-31 | "DEBUG", "Warn" and "ERROR" select their levels. |
| `Logging.OtherNamesFallBackToInfo` | internal/logging/main.go:32 | "warning", "fatal", "info" and "" select Info. |

## Left out

- IMAP, TLS, D-Bus and the file system are not performed. Their outcomes are inputs and their calls are recorded effects.
- MIME parsing (`mail.CreateReader`, `NextPart`) is not modelled. A body arrives as the parsed reader or its error, and parts arrive as a sequence of outcomes.
- Server-side search matching is not modelled. The search result is an input, and the model records the criteria sent.
- Header key canonicalisation by `textproto.MIMEHeader.Add` is not modelled. Keys are kept as "TO" and "SUBJECT".
- Time values: dates are integers and sleeps are recorded as effects. Session.Connect records the one-second pauses between dials, but Run's trace does not carry them.
- Concurrency: the fetch goroutine and the STORE goroutine are sequentialised. If the timer and a signal become ready at the very same instant, the model lets the timer win. Go picks at random.
- Session.CollectMessages: the fetch error returned through the `done` channel is never read by the source, and the model ignores it in the same way.
- Logging.ToLower: only ASCII letters are lower-cased. Go's Unicode case mapping is not modelled.
- Dialog texts are not formatted. Each is a `Notice` value, and the host, port and error text are carried as fields.
- Configuration loading, validation and the command-line layer are not part of this model. `internal/commands/run.go` ignoring the `PreparePrerequisites` error is not modelled, and neither is `Uninstall`.
- The legacy entry point's connect, login, select and message loop duplicate the current ones and are not modelled again. Its switches, criteria, processing settings and completion are.
- Legacy.LegacyComplete records the call to `LibraryRescanFull("30000")`, but that function and `config.DefaultLibraryPath` are not part of this model.
- The deployment of the NickelMenu entry and the udev rules file is reduced to presence flags, with each file operation's error given as an input.
- Logging output and the zap logger set-up are not modelled.
- KoboMail.Complete: the rescan is requested with the corrected thirty-second timeout, not the 30000 seconds that internal/kobomail/main.go:263 passes (see Findings).
- KoboMail.Completion: the completion it reports uses the corrected thirty-second rescan timeout, not 30000 seconds.
- KoboMail.Run: a whole run uses the corrected thirty-second rescan timeout, so a run that would wait 30000 seconds for a lost signal is not modelled.

## Findings

| source | as written | input that shows it | evidently intended | confidence | as-written member | corrected member |
|---|---|---|---|---|---|---|
| internal/kobomail/main.go:263 | `LibraryRescan(30000, …)` passes 30000 to a parameter in seconds (`time.Duration(timeoutSeconds) * time.Second`, pkg/nickeldbus/library.go:48). | A rescan whose done signal never arrives makes the run wait 30000 s, which is 8 h 20 min. | A 30-second timeout. This reading is a guess from the magnitude of the legacy "30000" argument, whose unit is not visible in these sources. | medium, not executed | `KoboMail.AsWrittenRescanTimeoutExceedsEightHours` | `KoboMail.RescanTimeoutIsThirtySeconds` |
| pkg/udev/main.go:13 | The Ethernet rule's `RUN+="…/kobomail_launcher.sh` has no closing quote. | The generated rules file, whose first line ends inside an open string. | The same closing quote as the Wi-Fi rule on the next line. | high, not executed | `Udev.AsWrittenEthernetRuleUnterminated` | `Udev.CorrectedRulesTerminated` |

=== FILE: attachments.dfy ===
/** A fetched mail message and the attachment extractor of KoboMail
    (pkg/imap/message.go): the lazily created MIME reader, header details,
    the extension allow-list and the walk that writes allowed attachments
    into the library folder.

    The MIME parser itself is not modelled: a message body arrives as the
    reader `mail.CreateReader` would produce (or its error), and the reader
    yields a pre-parsed sequence of `NextPart` outcomes. */
module Attachments {
  import opened Outcomes
  import opened Strings

  newtype byte = x: int | 0 <= x < 256

  /** A MIME part as classified by its header type. */
  datatype Part =
    | Inline
    | Attachment(filename: string, content: seq<byte>)

  /** One call of `NextPart`: a part, or a read error. The end of the
      sequence is `io.EOF`. */
  datatype PartEvent = Next(part: Part) | PartFailed(reason: string)

  datatype Address = Address(name: string, address: string)

  /** The top-level header as go-message's accessors return it. The date
      (seconds since an arbitrary epoch, 0 standing for Go's zero time) and
      the subject are the values returned; their errors are discarded by
      the caller. `AddressList` returns either a list or an error with a
      nil list, so the From field is one or the other. */
  datatype Header = Header(date: int, from: Result<seq<Address>>, subject: string)

  /** The From list `FetchDetails` indexes: nil when parsing failed. */
  function Senders(h: Header): seq<Address>
  {
    if h.from.Ok? then h.from.value else []
  }

  /** A MIME reader: the header and the parts not yet consumed. */
  datatype Reader = Reader(header: Header, parts: seq<PartEvent>)

  /** The BODY[] section the server returned, as `mail.CreateReader` parses it. */
  datatype Body = Body(parsed: Result<Reader>)

  /** A collected message: its sequence number, the body section the fetch
      delivered (None when the server sent none), the cached reader and the
      details `FetchDetails` fills in. */
  datatype Message = Message(
    seqNum: nat,
    body: Option<Body>,
    reader: Option<Reader>,
    date: int,
    sender: string,
    subject: string)

  /** Why extracting from a message failed; `SenderMissing` is Go's index
      out of range panic on an empty From list. */
  datatype Failure =
    | NoBody
    | Unparsable(reason: string)
    | PartUnreadable(reason: string)
    | WriteFailed(path: string)
    | SenderMissing

  /** A message as `CollectMessages` wraps it: nothing parsed, nothing cached. */
  function Collected(seqNum: nat, body: Option<Body>): (m: Message)
    ensures m.reader.None? && m.seqNum == seqNum && m.body == body
  {
    Message(seqNum, body, None, 0, "", "")
  }

  // ---------------------------------------------------------------------
  // Reader cache

  datatype ReaderAccess = ReaderAccess(reader: Result<Reader>, msg: Message)

  function FailureText(f: Failure): string
  {
    match f
    case NoBody => "server did not return message body"
    case Unparsable(reason) => reason
    case PartUnreadable(reason) => reason
    case WriteFailed(path) => "cannot write " + path
    case SenderMissing => "index out of range"
  }

  /** `getMessageReader`: return the cached reader, or create one from the
      body section and cache it. */
  function GetMessageReader(m: Message): (r: ReaderAccess)
    ensures r.msg == m.(reader := r.msg.reader)
    ensures m.reader.Some? ==> r == ReaderAccess(Ok(m.reader.value), m)
    ensures m.reader.None? && m.body.Some? ==> r.reader == m.body.value.parsed
    ensures m.reader.None? && m.body.None? ==> r.reader == Err(FailureText(NoBody))
    ensures r.reader.Ok? ==> r.msg.reader == Some(r.reader.value)
    ensures r.reader.Err? ==> r.msg == m && m.reader.None?
  {
    if m.reader.Some? then ReaderAccess(Ok(m.reader.value), m)
    else if m.body.None? then ReaderAccess(Err(FailureText(NoBody)), m)
    else
      match m.body.value.parsed
      case Err(e) => ReaderAccess(Err(e), m)
      case Ok(rd) => ReaderAccess(Ok(rd), m.(reader := Some(rd)))
  }

  /** The reader is created at most once: after one successful access a
      second access returns the same reader and changes nothing. */
  lemma ReaderCreatedOnce(m: Message)
    requires GetMessageReader(m).reader.Ok?
    ensures GetMessageReader(GetMessageReader(m).msg) == GetMessageReader(m)
  {
  }

  /** Without a body section the access fails and the cache stays unset,
      however often it is retried. */
  lemma NoBodyLeavesCacheUnset(m: Message)
    requires m.reader.None? && m.body.None?
    ensures GetMessageReader(m).msg.reader.None?
    ensures GetMessageReader(GetMessageReader(m).msg) == GetMessageReader(m)
  {
  }

  // ---------------------------------------------------------------------
  // FetchDetails

  datatype Details = Details(failure: Option<Failure>, msg: Message)

  /** `FetchDetails`: fill date, sender and subject from the header,
      ignoring the accessors' errors. An empty or unparsable From list makes
      Go's `messageSender[0]` panic, after the date has been taken. */
  function FetchDetails(m: Message): (r: Details)
    ensures GetMessageReader(m).reader.Err? ==>
      r.msg == m && r.failure == Some(if m.body.None? then NoBody else Unparsable(GetMessageReader(m).reader.error))
    ensures r.failure.None? <==>
      GetMessageReader(m).reader.Ok? && |Senders(GetMessageReader(m).reader.value.header)| > 0
    ensures GetMessageReader(m).reader.Ok? && |Senders(GetMessageReader(m).reader.value.header)| == 0 ==>
      r.failure == Some(SenderMissing)
    ensures r.failure.None? ==>
      var h := GetMessageReader(m).reader.value.header;
      && r.msg == GetMessageReader(m).msg.(date := h.date, sender := Senders(h)[0].address, subject := h.subject)
  {
    var access := GetMessageReader(m);
    match access.reader
    case Err(e) => Details(Some(if m.body.None? then NoBody else Unparsable(e)), access.msg)
    case Ok(rd) =>
      var h := rd.header;
      var senders := Senders(h);
      var withDate := access.msg.(date := h.date);
      if |senders| == 0 then Details(Some(SenderMissing), withDate)
      else Details(None, withDate.(sender := senders[0].address, subject := h.subject))
  }

  /** A From header that does not parse comes back as a nil list with its
      error; the error is discarded and the index panics. */
  lemma FromParseErrorPanics(m: Message, e: string)
    requires GetMessageReader(m).reader.Ok?
    requires GetMessageReader(m).reader.value.header.from == Err(e)
    ensures FetchDetails(m).failure == Some(SenderMissing)
    ensures FetchDetails(m).msg.date == GetMessageReader(m).reader.value.header.date
  {
  }

  // ---------------------------------------------------------------------
  // Extension of an attachment file name

  /** Go's `filepath.Ext` scanning back from position `i`: the suffix from
      the last '.' of the final path element, or "" on reaching a '/' or the
      start of the name. */
  function ExtScan(path: string, i: nat): string
    requires i <= |path|
  {
    if i == 0 || path[i - 1] == '/' then ""
    else if path[i - 1] == '.' then path[i - 1..]
    else ExtScan(path, i - 1)
  }

  function TrimLeadingDots(s: string): string
  {
    if |s| > 0 && s[0] == '.' then TrimLeadingDots(s[1..]) else s
  }

  function TrimTrailingDots(s: string): string
  {
    if |s| > 0 && s[|s| - 1] == '.' then TrimTrailingDots(s[..|s| - 1]) else s
  }

  /** `strings.Trim(filepath.Ext(filename), ".")`. */
  function Extension(filename: string): string
  {
    TrimTrailingDots(TrimLeadingDots(ExtScan(filename, |filename|)))
  }

  /** `k` is the last '.' of the final path element of `name`. */
  predicate LastDotOfBase(name: string, k: nat)
  {
    && k < |name|
    && name[k] == '.'
    && forall j :: k < j < |name| ==> name[j] != '.' && name[j] != '/'
  }

  lemma {:induction false} ScanFindsDot(path: string, k: nat, i: nat)
    requires k < i <= |path| && path[k] == '.'
    requires forall j :: k < j < i ==> path[j] != '.' && path[j] != '/'
    ensures ExtScan(path, i) == path[k..]
    decreases i
  {
    if i - 1 != k {
      ScanFindsDot(path, k, i - 1);
    }
  }

  lemma {:induction false} ScanFindsNothing(path: string, i: nat)
    requires i <= |path|
    requires forall j :: i <= j < |path| ==> path[j] != '.' && path[j] != '/'
    requires forall k :: 0 <= k < |path| ==> !LastDotOfBase(path, k)
    ensures ExtScan(path, i) == ""
    decreases i
  {
    if i > 0 && path[i - 1] != '/' {
      if path[i - 1] == '.' {
        assert LastDotOfBase(path, i - 1);
      } else {
        ScanFindsNothing(path, i - 1);
      }
    }
  }

  /** The extension is the text after the last '.' of the final path element. */
  lemma ExtensionIsTextAfterLastDot(name: string, k: nat)
    requires LastDotOfBase(name, k)
    ensures Extension(name) == name[k + 1..]
  {
    ScanFindsDot(name, k, |name|);
    var rest := name[k + 1..];
    assert name[k..] == ['.'] + rest;
    assert name[k..][1..] == rest;
    assert TrimLeadingDots(name[k..]) == TrimLeadingDots(rest);
    assert Free(rest, '.') by {
      forall j | 0 <= j < |rest| ensures rest[j] != '.' {
        assert rest[j] == name[k + 1 + j];
      }
    }
    if |rest| > 0 {
      assert rest[0] != '.' && rest[|rest| - 1] != '.';
    }
  }

  /** Without a '.' in the final path element the extension is empty. */
  lemma ExtensionEmptyWithoutDot(name: string)
    requires forall k :: 0 <= k < |name| ==> !LastDotOfBase(name, k)
    ensures Extension(name) == ""
  {
    ScanFindsNothing(name, |name|);
  }

  /** A name ending in '.' has the empty extension; appending ".x" to any
      name gives extension "x" when "x" has no '.' or '/'. */
  lemma ExtensionEdgeCases(name: string, x: string)
    requires Free(x, '.') && Free(x, '/')
    ensures Extension(name + ".") == ""
    ensures Extension(name + "." + x) == x
  {
    var dotted := name + ".";
    assert LastDotOfBase(dotted, |name|);
    ExtensionIsTextAfterLastDot(dotted, |name|);
    assert dotted[|name| + 1..] == "";
    var full := name + "." + x;
    assert full[|name|] == '.';
    forall j | |name| < j < |full| ensures full[j] != '.' && full[j] != '/' {
      assert full[j] == x[j - |name| - 1];
    }
    assert LastDotOfBase(full, |name|);
    ExtensionIsTextAfterLastDot(full, |name|);
    assert full[|name| + 1..] == x;
  }

  // ---------------------------------------------------------------------
  // Allow-list

  /** The set Go builds from the slice before the lookup. */
  function ToSet(slice: seq<string>): (s: set<string>)
    ensures forall x :: x in s <==> x in slice
  {
    if |slice| == 0 then {}
    else ToSet(slice[..|slice| - 1]) + {slice[|slice| - 1]}
  }

  /** `containsFiletype`: case-sensitive membership, indifferent to order
      and duplicates. */
  function ContainsFiletype(slice: seq<string>, item: string): (ok: bool)
    ensures ok <==> exists k :: 0 <= k < |slice| && slice[k] == item
  {
    item in ToSet(slice)
  }

  /** Two allow-lists with the same elements accept the same extensions. */
  lemma {:induction false} ContainsFiletypeIgnoresOrderAndDuplicates(a: seq<string>, b: seq<string>, item: string)
    requires forall x :: x in a <==> x in b
    ensures ContainsFiletype(a, item) == ContainsFiletype(b, item)
  {
    assert ContainsFiletype(a, item) <==> item in a;
    assert ContainsFiletype(b, item) <==> item in b;
  }

  lemma ContainsFiletypeIsCaseSensitive()
    ensures !ContainsFiletype(["epub"], "EPUB")
    ensures ContainsFiletype(["pdf", "epub", "pdf"], "epub")
  {
    assert "epub" != "EPUB" by { assert "epub"[0] != "EPUB"[0]; }
  }

  // ---------------------------------------------------------------------
  // Attachment walk

  const KepubExtension := "kepub"

  datatype FileWrite = FileWrite(path: string, content: seq<byte>)

  /** The name an allowed attachment is saved under: a kepub gets ".epub"
      appended so that the reader handles it. */
  function TargetName(filename: string): string
  {
    if Extension(filename) == KepubExtension then filename + ".epub" else filename
  }

  function TargetPath(destination: string, filename: string): string
  {
    destination + "/" + TargetName(filename)
  }

  /** The part is an attachment whose extension is allowed. */
  predicate Saves(p: Part, allowed: seq<string>)
  {
    p.Attachment? && ContainsFiletype(allowed, Extension(p.filename))
  }

  /** Reference: the files a walk over `parts` writes when nothing fails. */
  function Wanted(parts: seq<Part>, allowed: seq<string>, destination: string): seq<FileWrite>
  {
    if |parts| == 0 then []
    else
      var here := if Saves(parts[0], allowed)
        then [FileWrite(TargetPath(destination, parts[0].filename), parts[0].content)]
        else [];
      here + Wanted(parts[1..], allowed, destination)
  }

  /** `w` is the file an allowed attachment `p` is saved as. */
  predicate SavedAs(p: Part, allowed: seq<string>, destination: string, w: FileWrite)
  {
    Saves(p, allowed) && w == FileWrite(TargetPath(destination, p.filename), p.content)
  }

  /** Exactly the allowed attachments are written, each to its target path,
      and nothing else. */
  lemma {:induction false} WantedExactlyAllowed(parts: seq<Part>, allowed: seq<string>, destination: string, w: FileWrite)
    ensures w in Wanted(parts, allowed, destination) <==>
      exists j :: 0 <= j < |parts| && SavedAs(parts[j], allowed, destination, w)
  {
    if |parts| > 0 {
      var tail := parts[1..];
      WantedExactlyAllowed(tail, allowed, destination, w);
      if w in Wanted(tail, allowed, destination) {
        var j :| 0 <= j < |tail| && SavedAs(tail[j], allowed, destination, w);
        assert parts[j + 1] == tail[j];
      }
      if exists j :: 0 <= j < |parts| && SavedAs(parts[j], allowed, destination, w) {
        var j :| 0 <= j < |parts| && SavedAs(parts[j], allowed, destination, w);
        if j > 0 {
          assert tail[j - 1] == parts[j];
        }
      }
    }
  }

  /** The kepub rename: an allowed kepub attachment lands at
      `destination/name.epub`, which the reader sees as an epub; every other
      allowed attachment keeps its name. */
  lemma KepubRenamed(destination: string, filename: string)
    ensures Extension(filename) == KepubExtension ==>
      TargetPath(destination, filename) == destination + "/" + filename + ".epub"
      && Extension(filename + ".epub") == "epub"
    ensures Extension(filename) != KepubExtension ==>
      TargetPath(destination, filename) == destination + "/" + filename
  {
    var epub := "epub";
    assert Free(epub, '.') && Free(epub, '/');
    ExtensionEdgeCases(filename, epub);
    assert filename + "." + epub == filename + ".epub";
  }

  /** The parts among the events, failures dropped. */
  function Parts(events: seq<PartEvent>): seq<Part>
  {
    if |events| == 0 then []
    else (if events[0].Next? then [events[0].part] else []) + Parts(events[1..])
  }

  predicate NoReadFailure(events: seq<PartEvent>)
  {
    forall k :: 0 <= k < |events| ==> events[k].Next?
  }

  /** Every `NextPart` succeeds and every wanted file can be written. */
  predicate Clean(events: seq<PartEvent>, allowed: seq<string>, destination: string, unwritable: set<string>)
  {
    && NoReadFailure(events)
    && forall w :: w in Wanted(Parts(events), allowed, destination) ==> w.path !in unwritable
  }

  /** The outcome of the part loop: the count returned, the error, the files
      written before it stopped, and the parts left unread. */
  datatype Walk = Walk(count: nat, failure: Option<Failure>, writes: seq<FileWrite>, rest: seq<PartEvent>)

  /** The `for { NextPart … }` loop of `ProcessAttachments`. Writing to a path
      in `unwritable` fails. Any error returns count 0; files written before
      it stay written. */
  function WalkParts(events: seq<PartEvent>, allowed: seq<string>, destination: string, unwritable: set<string>): (r: Walk)
    ensures r.failure.Some? ==> r.count == 0
    ensures r.failure.None? ==> r.count == |r.writes| && r.rest == []
    ensures r.failure.None? <==> Clean(events, allowed, destination, unwritable)
    ensures r.failure.None? ==> r.writes == Wanted(Parts(events), allowed, destination)
    ensures forall w :: w in r.writes ==> w.path !in unwritable
    ensures forall w :: w in r.writes ==> w in Wanted(Parts(events), allowed, destination)
    decreases |events|
  {
    if |events| == 0 then Walk(0, None, [], [])
    else
      match events[0]
      case PartFailed(reason) => Walk(0, Some(PartUnreadable(reason)), [], events[1..])
      case Next(p) =>
        if Saves(p, allowed) then
          var w := FileWrite(TargetPath(destination, p.filename), p.content);
          if w.path in unwritable then Walk(0, Some(WriteFailed(w.path)), [], events[1..])
          else
            var r := WalkParts(events[1..], allowed, destination, unwritable);
            Walk(if r.failure.None? then r.count + 1 else 0, r.failure, [w] + r.writes, r.rest)
        else WalkParts(events[1..], allowed, destination, unwritable)
  }

  /** A walk that fails at event `k` has written exactly the files the
      parts before `k` call for, and those writes stay: the error return
      discards only the count. */
  lemma {:induction false} FailedWalkKeepsEarlierWrites(events: seq<PartEvent>, allowed: seq<string>, destination: string, unwritable: set<string>)
    ensures var r := WalkParts(events, allowed, destination, unwritable);
      r.failure.Some? ==>
        && |r.rest| < |events|
        && var k := |events| - |r.rest| - 1;
        && r.rest == events[k + 1..]
        && r.writes == Wanted(Parts(events[..k]), allowed, destination)
    decreases |events|
  {
    var r := WalkParts(events, allowed, destination, unwritable);
    if |events| > 0 && r.failure.Some? {
      var k := |events| - |r.rest| - 1;
      match events[0]
      case PartFailed(_) =>
        assert events[..0] == [];
      case Next(p) =>
        var tail := events[1..];
        if Saves(p, allowed) && TargetPath(destination, p.filename) in unwritable {
          assert events[..0] == [];
        } else {
          var r' := WalkParts(tail, allowed, destination, unwritable);
          FailedWalkKeepsEarlierWrites(tail, allowed, destination, unwritable);
          assert r.rest == r'.rest;
          PartsAfterFirst(events, p, k);
          PrependWanted(p, Parts(tail[..k - 1]), allowed, destination);
        }
    }
  }

  /** The parts of a prefix that starts with part `p`. */
  lemma PartsAfterFirst(events: seq<PartEvent>, p: Part, k: nat)
    requires 1 <= k <= |events| && events[0] == Next(p)
    ensures Parts(events[..k]) == [p] + Parts(events[1..][..k - 1])
  {
    var before := events[..k];
    assert before[0] == Next(p) && before[1..] == events[1..][..k - 1];
  }

  lemma PrependWanted(p: Part, parts: seq<Part>, allowed: seq<string>, destination: string)
    ensures Wanted([p] + parts, allowed, destination) ==
      (if Saves(p, allowed) then [FileWrite(TargetPath(destination, p.filename), p.content)] else [])
      + Wanted(parts, allowed, destination)
  {
    assert ([p] + parts)[1..] == parts;
  }

  datatype Extraction = Extraction(count: nat, failure: Option<Failure>, writes: seq<FileWrite>, msg: Message)

  /** `ProcessAttachments`: obtain the reader, then walk its parts. The
      cached reader is left with the parts the walk did not consume. */
  function ProcessAttachments(m: Message, allowed: seq<string>, destination: string, unwritable: set<string>): (r: Extraction)
    ensures r.failure.Some? ==> r.count == 0
    ensures r.msg.seqNum == m.seqNum
    ensures GetMessageReader(m).reader.Err? ==> r.failure.Some? && r.writes == [] && r.msg == m
    ensures GetMessageReader(m).reader.Ok? ==>
      var rd := GetMessageReader(m).reader.value;
      && (r.failure.None? <==> Clean(rd.parts, allowed, destination, unwritable))
      && (r.failure.None? ==> r.count == |r.writes| && r.writes == Wanted(Parts(rd.parts), allowed, destination))
      && r.msg.reader.Some? && r.msg.reader.value.header == rd.header
      && (forall w :: w in r.writes ==> w in Wanted(Parts(rd.parts), allowed, destination))
      && r.writes == WalkParts(rd.parts, allowed, destination, unwritable).writes
      && r.failure == WalkParts(rd.parts, allowed, destination, unwritable).failure
    ensures r.failure.None? ==> r.msg.reader.Some? && r.msg.reader.value.parts == []
    ensures forall w :: w in r.writes ==> w.path !in unwritable
  {
    var access := GetMessageReader(m);
    match access.reader
    case Err(e) => Extraction(0, Some(if m.body.None? then NoBody else Unparsable(e)), [], m)
    case Ok(rd) =>
      var walk := WalkParts(rd.parts, allowed, destination, unwritable);
      Extraction(walk.count, walk.failure, walk.writes, access.msg.(reader := Some(rd.(parts := walk.rest))))
  }

  /** The parts are a one-shot stream: after a successful extraction, a second
      one on the same message finds nothing left to write. */
  lemma {:induction false} SecondExtractionWritesNothing(m: Message, allowed: seq<string>, destination: string, unwritable: set<string>)
    requires ProcessAttachments(m, allowed, destination, unwritable).failure.None?
    ensures var again := ProcessAttachments(ProcessAttachments(m, allowed, destination, unwritable).msg, allowed, destination, unwritable);
      again.count == 0 && again.writes == [] && again.failure.None?
  {
    var first := ProcessAttachments(m, allowed, destination, unwritable).msg;
    assert GetMessageReader(first).reader.Ok?;
    assert GetMessageReader(first).reader.value.parts == [];
    assert Parts([]) == [];
    assert Wanted([], allowed, destination) == [];
  }

  /** A failing write after a successful one: the count is 0 but the first
      file stays written. */
  lemma PartialWritesStay(destination: string, c1: seq<byte>, c2: seq<byte>)
    ensures var events := [Next(Attachment("a.epub", c1)), Next(Inline), Next(Attachment("b.epub", c2))];
      var r := WalkParts(events, ["epub"], destination, {destination + "/b.epub"});
      r.count == 0 && r.failure == Some(WriteFailed(destination + "/b.epub"))
      && r.writes == [FileWrite(destination + "/a.epub", c1)]
  {
    ExtensionEdgeCases("a", "epub");
    ExtensionEdgeCases("b", "epub");
    assert "a" + "." + "epub" == "a.epub";
    assert "b" + "." + "epub" == "b.epub";
    assert destination + "/" + "a.epub" == destination + "/a.epub";
    assert destination + "/" + "b.epub" == destination + "/b.epub";
    assert destination + "/a.epub" != destination + "/b.epub" by {
      var k := |destination| + 1;
      assert (destination + "/a.epub")[k] == 'a';
      assert (destination + "/b.epub")[k] == 'b';
    }
    assert Extension("a.epub") != KepubExtension && Extension("b.epub") != KepubExtension by {
      assert |"epub"| != |KepubExtension|;
    }
    var events := [Next(Attachment("a.epub", c1)), Next(Inline), Next(Attachment("b.epub", c2))];
    var bad := {destination + "/b.epub"};
    assert events[1..][1..] == [Next(Attachment("b.epub", c2))];
    var last := WalkParts(events[1..][1..], ["epub"], destination, bad);
    assert last == Walk(0, Some(WriteFailed(destination + "/b.epub")), [], []);
    assert WalkParts(events[1..], ["epub"], destination, bad) == last;
  }
}

=== FILE: effects.dfy ===
/** The observable trace of a KoboMail run, shared by the current and the
    legacy entry points: dialog calls, the search issued, files written,
    flags stored, the completion step and the logout.

    Dialog texts are built with `strconv.Itoa` and `fmt.Sprintf`; here each
    text is a `Notice` carrying the values it is built from. */
module Effects {
  import opened Attachments
  import opened Search

  datatype Notice =
    | StartingUp
    | ConnectFailed(host: string, port: int)
    | AuthFailed(reason: string)
    | SelectFailed(folder: string, reason: string)
    | FetchFailed(reason: string)
    | NothingToDo
    | Found(emails: nat)
    | MessageFailed(reason: string)
    | AttachmentFailed(reason: string)
    | DeleteFailed(reason: string)
    | Processed(ebooks: nat)

  datatype Effect =
    | DialogCreate(notice: Notice)
    | DialogUpdate(notice: Notice)
    | DialogOk
    | SearchIssued(criteria: Criteria)
    | Write(file: FileWrite)
    | Store(seqNum: nat)
    | RescanRequested(timeoutSeconds: int, fullScan: bool)
    | LegacyFullRescan(timeout: string)
    | HardwareStatus(command: string)
    | Sleep(seconds: nat)
    | Logout

  predicate IsDialog(e: Effect)
  {
    e.DialogCreate? || e.DialogUpdate? || e.DialogOk?
  }

  predicate NoDialog(trace: seq<Effect>)
  {
    forall k :: 0 <= k < |trace| ==> !IsDialog(trace[k])
  }

  predicate NoHotplug(trace: seq<Effect>)
  {
    forall k :: 0 <= k < |trace| ==> !trace[k].HardwareStatus?
  }

  predicate NoRescan(trace: seq<Effect>)
  {
    forall k :: 0 <= k < |trace| ==> !trace[k].RescanRequested? && !trace[k].LegacyFullRescan?
  }

  predicate NoLogout(trace: seq<Effect>)
  {
    forall k :: 0 <= k < |trace| ==> trace[k] != Logout
  }

  /** Every effect is a file write or a flag store. */
  predicate OnlyMailWork(trace: seq<Effect>)
  {
    forall k :: 0 <= k < |trace| ==> trace[k].Write? || trace[k].Store?
  }

  const HardwareStatusPipe := "/tmp/nickel-hardware-status"
  const HotplugSettleSeconds := 10

  /** `nickelUSBplugAction`: the line written to the hardware status pipe. */
  function PlugCommand(action: string): string
  {
    "usb plug " + action
  }

  /** The simulated cable: plug in, wait ten seconds, unplug. */
  function HotplugSimulation(): (t: seq<Effect>)
    ensures t == [HardwareStatus("usb plug add"), Sleep(10), HardwareStatus("usb plug remove")]
  {
    assert PlugCommand("add") == "usb plug add";
    assert PlugCommand("remove") == "usb plug remove";
    [HardwareStatus(PlugCommand("add")), Sleep(HotplugSettleSeconds), HardwareStatus(PlugCommand("remove"))]
  }

  /** The files written, as effects. */
  function Writes(ws: seq<FileWrite>): (t: seq<Effect>)
    ensures |t| == |ws|
    ensures forall k :: 0 <= k < |ws| ==> t[k] == Write(ws[k])
  {
    if |ws| == 0 then [] else [Write(ws[0])] + Writes(ws[1..])
  }

  /** The sequence numbers of the stores, in trace order. */
  function Stored(trace: seq<Effect>): seq<nat>
  {
    if |trace| == 0 then []
    else (if trace[0].Store? then [trace[0].seqNum] else []) + Stored(trace[1..])
  }

  lemma {:induction false} StoredAppend(a: seq<Effect>, b: seq<Effect>)
    ensures Stored(a + b) == Stored(a) + Stored(b)
    decreases |a|
  {
    if |a| == 0 {
      assert a + b == b;
    } else {
      assert (a + b)[1..] == a[1..] + b;
      StoredAppend(a[1..], b);
    }
  }

  lemma {:induction false} StoredOfWrites(ws: seq<FileWrite>)
    ensures Stored(Writes(ws)) == []
    decreases |ws|
  {
    if |ws| > 0 {
      assert Writes(ws)[1..] == Writes(ws[1..]);
      StoredOfWrites(ws[1..]);
    }
  }
}

=== FILE: kobomail.dfy ===
/** The run of KoboMail, current version (internal/kobomail/main.go): the
    dialog gating, the per-message accumulate-then-delete loop, the
    completion step and `Run` itself.

    The outside world is an `Environment` of given outcomes: each dial, the
    LOGIN and SELECT answers, the SEARCH and FETCH answers, the paths that
    cannot be written, the STOREs the server refuses, the server's flags,
    the D-Bus subscription and the signals that arrive. */
module KoboMail {
  import opened Outcomes
  import opened Attachments
  import opened Search
  import opened Session
  import opened NickelDbus
  import opened Effects

  /** The configuration fields `Run` reads. */
  datatype Config = Config(
    host: string, port: int, user: string, folder: string,
    flagType: string, flag: string, unseen: bool,
    delete: bool, filetypes: seq<string>, fullRescan: bool,
    showNotifications: bool, libraryPath: string)

  datatype Environment = Environment(
    dial: nat -> DialOutcome,
    loginError: Option<string>,
    selectError: Option<string>,
    search: Result<seq<nat>>,
    fetch: FetchOutcome,
    unwritable: set<string>,
    storeErrors: map<nat, string>,
    mailbox: Mailbox,
    matchError: Option<string>,
    arrivals: seq<Arrival>)

  /** The timeout `Run` passes to `LibraryRescan`, which counts it in
      seconds. */
  const RescanTimeoutAsWritten := 30000
  /** The thirty-second wait the rescan is meant to have; the model's `Run`
      uses this one. */
  const RescanTimeoutSeconds := 30

  // ---------------------------------------------------------------------
  // Dialogs

  /** `showDialog`: only with NickelDbus in use and notifications on; the
      OK button only when asked for. */
  function ShowDialog(useNickelDbus: bool, showNotifications: bool, notice: Notice, confirm: bool): (t: seq<Effect>)
    ensures NoDialog(t) <==> !(useNickelDbus && showNotifications)
    ensures useNickelDbus && showNotifications ==> |t| > 0 && t[0] == DialogCreate(notice)
    ensures DialogOk in t <==> useNickelDbus && showNotifications && confirm
    ensures forall k :: 0 <= k < |t| ==> IsDialog(t[k])
  {
    if useNickelDbus && showNotifications then
      var t := [DialogCreate(notice)] + (if confirm then [DialogOk] else []);
      assert IsDialog(t[0]);
      t
    else []
  }

  /** `updateDialog`: the same gating, updating the body instead. */
  function UpdateDialog(useNickelDbus: bool, showNotifications: bool, notice: Notice, confirm: bool): (t: seq<Effect>)
    ensures NoDialog(t) <==> !(useNickelDbus && showNotifications)
    ensures useNickelDbus && showNotifications ==> |t| > 0 && t[0] == DialogUpdate(notice)
    ensures DialogOk in t <==> useNickelDbus && showNotifications && confirm
    ensures forall k :: 0 <= k < |t| ==> IsDialog(t[k])
  {
    if useNickelDbus && showNotifications then
      var t := [DialogUpdate(notice)] + (if confirm then [DialogOk] else []);
      assert IsDialog(t[0]);
      t
    else []
  }

  // ---------------------------------------------------------------------
  // The message loop

  /** The processing settings the loop reads. */
  datatype Processing = Processing(filetypes: seq<string>, libraryPath: string, delete: bool)

  /** Why the loop stopped early: a fatal error shown to the user, or a
      runtime panic. */
  datatype Stop = Abort(notice: Notice) | Crash(reason: string)

  /** The notices the message loop can stop with. */
  predicate LoopNotice(n: Notice)
  {
    n.MessageFailed? || n.AttachmentFailed? || n.DeleteFailed?
  }

  datatype Progress = Progress(total: nat, effects: seq<Effect>, mailbox: Mailbox, stop: Option<Stop>)

  function StoreOutcome(storeErrors: map<nat, string>, n: nat): Option<string>
  {
    if n in storeErrors then Some(storeErrors[n]) else None
  }

  /** Nothing goes wrong for this message: its details parse, every part is
      read and written, and its STORE (if any) is accepted. */
  predicate Healthy(m: Message, p: Processing, unwritable: set<string>, storeErrors: map<nat, string>)
  {
    && FetchDetails(m).failure.None?
    && Clean(GetMessageReader(m).reader.value.parts, p.filetypes, p.libraryPath, unwritable)
    && (p.delete ==> m.seqNum !in storeErrors)
  }

  /** Reference: how many allowed attachments the message carries. */
  function Expected(m: Message, p: Processing): nat
  {
    if FetchDetails(m).failure.None?
    then |Wanted(Parts(GetMessageReader(m).reader.value.parts), p.filetypes, p.libraryPath)|
    else 0
  }

  function ExpectedTotal(msgs: seq<Message>, p: Processing): nat
  {
    if |msgs| == 0 then 0 else Expected(msgs[0], p) + ExpectedTotal(msgs[1..], p)
  }

  /** Reference: what a message that passes leaves behind, its wanted files
      in part order and then, when deleting, its STORE. */
  function ExpectedEffects(m: Message, p: Processing): seq<Effect>
  {
    if FetchDetails(m).failure.None?
    then Writes(Wanted(Parts(GetMessageReader(m).reader.value.parts), p.filetypes, p.libraryPath))
         + (if p.delete then [Store(m.seqNum)] else [])
    else []
  }

  /** Reference: the effects of passing messages, one after the other. */
  function ExpectedLoopEffects(msgs: seq<Message>, p: Processing): seq<Effect>
  {
    if |msgs| == 0 then [] else ExpectedEffects(msgs[0], p) + ExpectedLoopEffects(msgs[1..], p)
  }

  /** Reference: the position of the first message that does not pass, or
      the number of messages when all pass. */
  function FirstUnhealthy(msgs: seq<Message>, p: Processing, unwritable: set<string>, storeErrors: map<nat, string>): (k: nat)
    ensures k <= |msgs|
    ensures forall j :: 0 <= j < k ==> Healthy(msgs[j], p, unwritable, storeErrors)
    ensures k < |msgs| ==> !Healthy(msgs[k], p, unwritable, storeErrors)
    decreases |msgs|
  {
    if |msgs| == 0 || !Healthy(msgs[0], p, unwritable, storeErrors) then 0
    else
      var k := 1 + FirstUnhealthy(msgs[1..], p, unwritable, storeErrors);
      assert forall j :: 1 <= j < |msgs| ==> msgs[j] == msgs[1..][j - 1];
      k
  }

  function SeqNums(msgs: seq<Message>): (ns: seq<nat>)
    ensures |ns| == |msgs|
    ensures forall k :: 0 <= k < |msgs| ==> ns[k] == msgs[k].seqNum
  {
    if |msgs| == 0 then [] else [msgs[0].seqNum] + SeqNums(msgs[1..])
  }

  /** The body of the `for _, msg := range messages` loop for one message:
      details, attachments, then (if deleting) the STORE, after all the
      message's files. */
  function ProcessMessage(m: Message, p: Processing, unwritable: set<string>, storeErrors: map<nat, string>, mailbox: Mailbox): (r: Progress)
    ensures r.stop.None? <==> Healthy(m, p, unwritable, storeErrors)
    ensures r.stop.None? ==> r.total == Expected(m, p)
    ensures r.stop.Some? && r.stop.value.Abort? ==> LoopNotice(r.stop.value.notice)
    ensures r.stop.Some? && r.stop.value.Crash? <==> FetchDetails(m).failure == Some(SenderMissing)
    ensures r.stop.Some? && r.stop.value.Crash? ==> r.stop.value.reason == FailureText(SenderMissing)
    ensures OnlyMailWork(r.effects)
    ensures r.mailbox.Keys == mailbox.Keys
    ensures forall n :: n in mailbox ==> mailbox[n] <= r.mailbox[n]
    ensures !p.delete ==> r.mailbox == mailbox && Stored(r.effects) == []
    ensures p.delete && r.stop.None? ==> Stored(r.effects) == [m.seqNum]
    ensures r.stop.None? ==> r.effects == ExpectedEffects(m, p)
    ensures p.delete && r.stop.None? && m.seqNum in mailbox ==> r.mailbox[m.seqNum] == mailbox[m.seqNum] + {DeletedFlag}
    ensures forall n :: n in mailbox && n != m.seqNum ==> r.mailbox[n] == mailbox[n]
  {
    var details := FetchDetails(m);
    if details.failure.Some? then
      if details.failure.value == SenderMissing then Progress(0, [], mailbox, Some(Crash(FailureText(SenderMissing))))
      else Progress(0, [], mailbox, Some(Abort(MessageFailed(FailureText(details.failure.value)))))
    else
      assert GetMessageReader(details.msg).reader == GetMessageReader(m).reader;
      ExtractThenDelete(details.msg, p, unwritable, storeErrors, mailbox)
  }

  /** The loop body once the details are in: the attachments, then (if
      deleting) the STORE. */
  function ExtractThenDelete(d: Message, p: Processing, unwritable: set<string>, storeErrors: map<nat, string>, mailbox: Mailbox): (r: Progress)
    requires GetMessageReader(d).reader.Ok?
    ensures r.stop.None? <==>
      Clean(GetMessageReader(d).reader.value.parts, p.filetypes, p.libraryPath, unwritable) && (p.delete ==> d.seqNum !in storeErrors)
    ensures r.stop.None? ==> r.total == |Wanted(Parts(GetMessageReader(d).reader.value.parts), p.filetypes, p.libraryPath)|
    ensures r.stop.Some? ==> r.stop.value.Abort? && LoopNotice(r.stop.value.notice)
    ensures OnlyMailWork(r.effects)
    ensures r.mailbox.Keys == mailbox.Keys
    ensures forall n :: n in mailbox ==> mailbox[n] <= r.mailbox[n]
    ensures !p.delete ==> r.mailbox == mailbox && Stored(r.effects) == []
    ensures p.delete && r.stop.None? ==> Stored(r.effects) == [d.seqNum]
    ensures r.stop.None? ==>
      r.effects == Writes(Wanted(Parts(GetMessageReader(d).reader.value.parts), p.filetypes, p.libraryPath)) + (if p.delete then [Store(d.seqNum)] else [])
    ensures p.delete && r.stop.None? && d.seqNum in mailbox ==> r.mailbox[d.seqNum] == mailbox[d.seqNum] + {DeletedFlag}
    ensures forall n :: n in mailbox && n != d.seqNum ==> r.mailbox[n] == mailbox[n]
  {
    var x := ProcessAttachments(d, p.filetypes, p.libraryPath, unwritable);
    var written := Writes(x.writes);
    StoredOfWrites(x.writes);
    if x.failure.Some? then Progress(0, written, mailbox, Some(Abort(AttachmentFailed(FailureText(x.failure.value)))))
    else if !p.delete then Progress(x.count, written, mailbox, None)
    else StoreDeleted(written, x.count, x.msg, storeErrors, mailbox)
  }

  /** The STORE of a message whose files are written. */
  function StoreDeleted(written: seq<Effect>, count: nat, m: Message, storeErrors: map<nat, string>, mailbox: Mailbox): (r: Progress)
    requires OnlyMailWork(written) && Stored(written) == []
    ensures r.effects == written + [Store(m.seqNum)] && Stored(r.effects) == [m.seqNum]
    ensures OnlyMailWork(r.effects)
    ensures r.total == count
    ensures r.stop.None? <==> m.seqNum !in storeErrors
    ensures r.stop.Some? ==> r.stop.value == Abort(DeleteFailed(storeErrors[m.seqNum])) && r.mailbox == mailbox
    ensures r.mailbox.Keys == mailbox.Keys
    ensures forall n :: n in mailbox ==> mailbox[n] <= r.mailbox[n]
    ensures r.stop.None? && m.seqNum in mailbox ==> r.mailbox[m.seqNum] == mailbox[m.seqNum] + {DeletedFlag}
    ensures forall n :: n in mailbox && n != m.seqNum ==> r.mailbox[n] == mailbox[n]
  {
    var del := DeleteMessage(mailbox, Some(m), StoreOutcome(storeErrors, m.seqNum));
    var trace := written + [Store(m.seqNum)];
    StoredAppend(written, [Store(m.seqNum)]);
    assert Stored([Store(m.seqNum)]) == [m.seqNum];
    if del.error.Some? then Progress(count, trace, mailbox, Some(Abort(DeleteFailed(del.error.value))))
    else Progress(count, trace, del.mailbox, None)
  }

  /** A message's STORE comes after all its files: every effect but the
      last is a write; a message that passes writes exactly its wanted
      files, in part order, one per counted attachment, and with deletion
      on its last effect is the STORE. */
  lemma StoreAfterWrites(m: Message, p: Processing, unwritable: set<string>, storeErrors: map<nat, string>, mailbox: Mailbox)
    ensures var r := ProcessMessage(m, p, unwritable, storeErrors, mailbox);
      && (forall k :: 0 <= k < |r.effects| - 1 ==> r.effects[k].Write?)
      && (r.stop.None? ==>
            var wanted := Wanted(Parts(GetMessageReader(m).reader.value.parts), p.filetypes, p.libraryPath);
            && r.effects[..|wanted|] == Writes(wanted)
            && r.total == |wanted|
            && |r.effects| == |wanted| + (if p.delete then 1 else 0))
      && (p.delete && r.stop.None? ==> |r.effects| > 0 && r.effects[|r.effects| - 1] == Store(m.seqNum))
  {
  }

  /** A message's loop outcome does not depend on the mailbox's flags. */
  lemma OutcomeIgnoresMailbox(m: Message, p: Processing, unwritable: set<string>, storeErrors: map<nat, string>, mailbox1: Mailbox, mailbox2: Mailbox)
    ensures ProcessMessage(m, p, unwritable, storeErrors, mailbox1).stop == ProcessMessage(m, p, unwritable, storeErrors, mailbox2).stop
    ensures ProcessMessage(m, p, unwritable, storeErrors, mailbox1).effects == ProcessMessage(m, p, unwritable, storeErrors, mailbox2).effects
  {
  }

  /** A message whose part walk fails at part k stops the loop with the
      attachment notice, and its trace holds exactly the files the parts
      before k call for: they were written before the error, which only
      discards the count. */
  lemma FailedMessageKeepsWrites(m: Message, p: Processing, unwritable: set<string>, storeErrors: map<nat, string>, mailbox: Mailbox)
    requires FetchDetails(m).failure.None?
    requires WalkParts(GetMessageReader(m).reader.value.parts, p.filetypes, p.libraryPath, unwritable).failure.Some?
    ensures var parts := GetMessageReader(m).reader.value.parts;
      var w := WalkParts(parts, p.filetypes, p.libraryPath, unwritable);
      var r := ProcessMessage(m, p, unwritable, storeErrors, mailbox);
      && r.stop == Some(Abort(AttachmentFailed(FailureText(w.failure.value))))
      && |w.rest| < |parts|
      && r.effects == Writes(Wanted(Parts(parts[..|parts| - |w.rest| - 1]), p.filetypes, p.libraryPath))
  {
    var parts := GetMessageReader(m).reader.value.parts;
    assert GetMessageReader(FetchDetails(m).msg).reader == GetMessageReader(m).reader;
    FailedWalkKeepsEarlierWrites(parts, p.filetypes, p.libraryPath, unwritable);
  }

  /** The message loop of `Run`: each message in collected order, stopping
      at the first that fails. Its meaning is stated by the lemmas below. */
  function ProcessMessages(msgs: seq<Message>, p: Processing, unwritable: set<string>, storeErrors: map<nat, string>, mailbox: Mailbox): (r: Progress)
    ensures OnlyMailWork(r.effects)
    ensures r.stop.Some? && r.stop.value.Abort? ==> LoopNotice(r.stop.value.notice)
    ensures r.stop.Some? && r.stop.value.Crash? ==>
      r.stop.value.reason == FailureText(SenderMissing) && exists k :: 0 <= k < |msgs| && FetchDetails(msgs[k]).failure == Some(SenderMissing)
    ensures r.mailbox.Keys == mailbox.Keys
    ensures forall n :: n in mailbox ==> mailbox[n] <= r.mailbox[n]
    ensures !p.delete ==> r.mailbox == mailbox && Stored(r.effects) == []
    ensures forall n :: n in mailbox && n !in SeqNums(msgs) ==> r.mailbox[n] == mailbox[n]
    decreases |msgs|
  {
    if |msgs| == 0 then Progress(0, [], mailbox, None)
    else
      var first := ProcessMessage(msgs[0], p, unwritable, storeErrors, mailbox);
      if first.stop.Some? then first
      else
        var rest := ProcessMessages(msgs[1..], p, unwritable, storeErrors, first.mailbox);
        StoredAppend(first.effects, rest.effects);
        SenderMissingInTail(msgs);
        Progress(first.total + rest.total, first.effects + rest.effects, rest.mailbox, rest.stop)
  }

  /** A message without a sender after the first is one of the messages. */
  lemma SenderMissingInTail(msgs: seq<Message>)
    requires |msgs| > 0
    ensures (exists k :: 0 <= k < |msgs| - 1 && FetchDetails(msgs[1..][k]).failure == Some(SenderMissing)) ==>
      exists k :: 0 <= k < |msgs| && FetchDetails(msgs[k]).failure == Some(SenderMissing)
  {
    if exists k :: 0 <= k < |msgs| - 1 && FetchDetails(msgs[1..][k]).failure == Some(SenderMissing) {
      var j :| 0 <= j < |msgs| - 1 && FetchDetails(msgs[1..][j]).failure == Some(SenderMissing);
      assert msgs[1..][j] == msgs[j + 1];
    }
  }

  /** The loop runs to the end exactly when every message is healthy, and
      then its total is the sum of the messages' allowed attachments and
      its effects are each message's files and STORE, message by message. */
  lemma {:induction false} LoopCompletesIffAllHealthy(msgs: seq<Message>, p: Processing, unwritable: set<string>, storeErrors: map<nat, string>, mailbox: Mailbox)
    ensures var r := ProcessMessages(msgs, p, unwritable, storeErrors, mailbox);
      && (r.stop.None? <==> forall k :: 0 <= k < |msgs| ==> Healthy(msgs[k], p, unwritable, storeErrors))
      && (r.stop.None? ==> r.total == ExpectedTotal(msgs, p))
      && (r.stop.None? ==> r.effects == ExpectedLoopEffects(msgs, p))
  {
    LoopCompletes(msgs, p, unwritable, storeErrors, mailbox);
    LoopTotal(msgs, p, unwritable, storeErrors, mailbox);
    LoopEffects(msgs, p, unwritable, storeErrors, mailbox);
  }

  lemma {:induction false} LoopEffects(msgs: seq<Message>, p: Processing, unwritable: set<string>, storeErrors: map<nat, string>, mailbox: Mailbox)
    ensures var r := ProcessMessages(msgs, p, unwritable, storeErrors, mailbox);
      r.stop.None? ==> r.effects == ExpectedLoopEffects(msgs, p)
    decreases |msgs|
  {
    if |msgs| > 0 {
      var first := ProcessMessage(msgs[0], p, unwritable, storeErrors, mailbox);
      if first.stop.None? {
        LoopEffects(msgs[1..], p, unwritable, storeErrors, first.mailbox);
      }
    }
  }

  /** The loop stops at the first message that does not pass: what it
      leaves behind is the passing messages' files and STOREs, then the
      failing message's own effects, and no later message is stored or
      flagged. */
  predicate StopsAtFirstUnhealthy(msgs: seq<Message>, p: Processing, unwritable: set<string>, storeErrors: map<nat, string>, mailbox: Mailbox)
  {
    var r := ProcessMessages(msgs, p, unwritable, storeErrors, mailbox);
    var k := FirstUnhealthy(msgs, p, unwritable, storeErrors);
    && (r.stop.None? <==> k == |msgs|)
    && (r.stop.Some? ==>
          var failing := ProcessMessage(msgs[k], p, unwritable, storeErrors, mailbox);
          && r.stop == failing.stop
          && r.effects == ExpectedLoopEffects(msgs[..k], p) + failing.effects
          && forall n :: n in mailbox && n !in SeqNums(msgs[..k + 1]) ==> r.mailbox[n] == mailbox[n])
  }

  lemma {:induction false} LoopStopsAtFirstFailure(msgs: seq<Message>, p: Processing, unwritable: set<string>, storeErrors: map<nat, string>, mailbox: Mailbox)
    ensures StopsAtFirstUnhealthy(msgs, p, unwritable, storeErrors, mailbox)
    decreases |msgs|
  {
    if |msgs| > 0 {
      var first := ProcessMessage(msgs[0], p, unwritable, storeErrors, mailbox);
      if first.stop.Some? {
        FirstFails(msgs, p, unwritable, storeErrors, mailbox);
      } else {
        LoopStopsAtFirstFailure(msgs[1..], p, unwritable, storeErrors, first.mailbox);
        FirstPasses(msgs, p, unwritable, storeErrors, mailbox);
      }
    }
  }

  lemma FirstFails(msgs: seq<Message>, p: Processing, unwritable: set<string>, storeErrors: map<nat, string>, mailbox: Mailbox)
    requires |msgs| > 0 && ProcessMessage(msgs[0], p, unwritable, storeErrors, mailbox).stop.Some?
    ensures StopsAtFirstUnhealthy(msgs, p, unwritable, storeErrors, mailbox)
  {
    assert msgs[..0] == [];
    assert SeqNums(msgs[..1]) == [msgs[0].seqNum];
  }

  lemma FirstPasses(msgs: seq<Message>, p: Processing, unwritable: set<string>, storeErrors: map<nat, string>, mailbox: Mailbox)
    requires |msgs| > 0 && ProcessMessage(msgs[0], p, unwritable, storeErrors, mailbox).stop.None?
    requires StopsAtFirstUnhealthy(msgs[1..], p, unwritable, storeErrors, ProcessMessage(msgs[0], p, unwritable, storeErrors, mailbox).mailbox)
    ensures StopsAtFirstUnhealthy(msgs, p, unwritable, storeErrors, mailbox)
  {
    var first := ProcessMessage(msgs[0], p, unwritable, storeErrors, mailbox);
    var k := FirstUnhealthy(msgs, p, unwritable, storeErrors);
    assert k == 1 + FirstUnhealthy(msgs[1..], p, unwritable, storeErrors);
    if ProcessMessages(msgs[1..], p, unwritable, storeErrors, first.mailbox).stop.Some? {
      PassThenFail(msgs, k, p, unwritable, storeErrors, mailbox);
    }
  }

  lemma PassThenFail(msgs: seq<Message>, k: nat, p: Processing, unwritable: set<string>, storeErrors: map<nat, string>, mailbox: Mailbox)
    requires 0 < k < |msgs|
    requires ProcessMessage(msgs[0], p, unwritable, storeErrors, mailbox).stop.None?
    requires var first := ProcessMessage(msgs[0], p, unwritable, storeErrors, mailbox);
      var rest := ProcessMessages(msgs[1..], p, unwritable, storeErrors, first.mailbox);
      var failing := ProcessMessage(msgs[1..][k - 1], p, unwritable, storeErrors, first.mailbox);
      && rest.stop.Some?
      && rest.stop == failing.stop
      && rest.effects == ExpectedLoopEffects(msgs[1..][..k - 1], p) + failing.effects
      && forall n :: n in first.mailbox && n !in SeqNums(msgs[1..][..k]) ==> rest.mailbox[n] == first.mailbox[n]
    ensures var r := ProcessMessages(msgs, p, unwritable, storeErrors, mailbox);
      var failing := ProcessMessage(msgs[k], p, unwritable, storeErrors, mailbox);
      && r.stop == failing.stop
      && r.effects == ExpectedLoopEffects(msgs[..k], p) + failing.effects
      && forall n :: n in mailbox && n !in SeqNums(msgs[..k + 1]) ==> r.mailbox[n] == mailbox[n]
  {
    var first := ProcessMessage(msgs[0], p, unwritable, storeErrors, mailbox);
    var rest := ProcessMessages(msgs[1..], p, unwritable, storeErrors, first.mailbox);
    LoopAfterPass(msgs, p, unwritable, storeErrors, mailbox);
    assert msgs[1..][k - 1] == msgs[k];
    OutcomeIgnoresMailbox(msgs[k], p, unwritable, storeErrors, first.mailbox, mailbox);
    var failing := ProcessMessage(msgs[k], p, unwritable, storeErrors, mailbox);
    ExpectedLoopEffectsOfPrefix(msgs, k, p);
    Regroup(first.effects, ExpectedLoopEffects(msgs[1..][..k - 1], p), failing.effects, ExpectedLoopEffects(msgs[..k], p));
    LaterFailureFrame(msgs, k, mailbox, first.mailbox, rest.mailbox);
  }

  /** One turn of the loop when the first message passes. */
  lemma LoopAfterPass(msgs: seq<Message>, p: Processing, unwritable: set<string>, storeErrors: map<nat, string>, mailbox: Mailbox)
    requires |msgs| > 0 && ProcessMessage(msgs[0], p, unwritable, storeErrors, mailbox).stop.None?
    ensures var first := ProcessMessage(msgs[0], p, unwritable, storeErrors, mailbox);
      var rest := ProcessMessages(msgs[1..], p, unwritable, storeErrors, first.mailbox);
      var r := ProcessMessages(msgs, p, unwritable, storeErrors, mailbox);
      r.stop == rest.stop && r.effects == first.effects + rest.effects && r.mailbox == rest.mailbox
  {
  }

  /** The step of `LoopStopsAtFirstFailure` when the first message passes
      and the one at `k` fails: the frame. */
  lemma LaterFailureFrame(msgs: seq<Message>, k: nat, mailbox: Mailbox, afterFirst: Mailbox, afterRest: Mailbox)
    requires 0 < k < |msgs|
    requires afterFirst.Keys == mailbox.Keys
    requires forall n :: n in mailbox && n != msgs[0].seqNum ==> afterFirst[n] == mailbox[n]
    requires afterRest.Keys == afterFirst.Keys
    requires forall n :: n in afterFirst && n !in SeqNums(msgs[1..][..k]) ==> afterRest[n] == afterFirst[n]
    ensures forall n :: n in mailbox && n !in SeqNums(msgs[..k + 1]) ==> afterRest[n] == mailbox[n]
  {
    SeqNumsOfPrefix(msgs, k + 1);
    forall n | n in mailbox && n !in SeqNums(msgs[..k + 1])
      ensures afterRest[n] == mailbox[n]
    {
      assert n != msgs[0].seqNum && n !in SeqNums(msgs[1..][..k]);
      assert n in afterFirst;
    }
  }

  /** Regrouping three stretches of trace. */
  lemma Regroup(a: seq<Effect>, b: seq<Effect>, c: seq<Effect>, ab: seq<Effect>)
    requires ab == a + b
    ensures a + (b + c) == ab + c
  {
  }

  lemma ExpectedLoopEffectsOfPrefix(msgs: seq<Message>, k: nat, p: Processing)
    requires 0 < k <= |msgs|
    ensures ExpectedLoopEffects(msgs[..k], p) == ExpectedEffects(msgs[0], p) + ExpectedLoopEffects(msgs[1..][..k - 1], p)
  {
    assert msgs[..k][0] == msgs[0] && msgs[..k][1..] == msgs[1..][..k - 1];
  }

  lemma SeqNumsOfPrefix(msgs: seq<Message>, k: nat)
    requires 0 < k <= |msgs|
    ensures SeqNums(msgs[..k]) == [msgs[0].seqNum] + SeqNums(msgs[1..][..k - 1])
  {
    assert msgs[..k][0] == msgs[0] && msgs[..k][1..] == msgs[1..][..k - 1];
  }


  lemma {:induction false} LoopCompletes(msgs: seq<Message>, p: Processing, unwritable: set<string>, storeErrors: map<nat, string>, mailbox: Mailbox)
    ensures var r := ProcessMessages(msgs, p, unwritable, storeErrors, mailbox);
      r.stop.None? <==> forall k :: 0 <= k < |msgs| ==> Healthy(msgs[k], p, unwritable, storeErrors)
    decreases |msgs|
  {
    if |msgs| > 0 {
      var first := ProcessMessage(msgs[0], p, unwritable, storeErrors, mailbox);
      if first.stop.None? {
        LoopCompletes(msgs[1..], p, unwritable, storeErrors, first.mailbox);
        AllHealthySplit(msgs, p, unwritable, storeErrors);
      }
    }
  }

  lemma AllHealthySplit(msgs: seq<Message>, p: Processing, unwritable: set<string>, storeErrors: map<nat, string>)
    requires |msgs| > 0
    ensures (forall k :: 0 <= k < |msgs| ==> Healthy(msgs[k], p, unwritable, storeErrors)) <==>
      Healthy(msgs[0], p, unwritable, storeErrors) && forall k :: 0 <= k < |msgs| - 1 ==> Healthy(msgs[1..][k], p, unwritable, storeErrors)
  {
    assert forall k :: 1 <= k < |msgs| ==> msgs[k] == msgs[1..][k - 1];
  }

  lemma {:induction false} LoopTotal(msgs: seq<Message>, p: Processing, unwritable: set<string>, storeErrors: map<nat, string>, mailbox: Mailbox)
    ensures var r := ProcessMessages(msgs, p, unwritable, storeErrors, mailbox);
      r.stop.None? ==> r.total == ExpectedTotal(msgs, p)
    decreases |msgs|
  {
    if |msgs| > 0 {
      var first := ProcessMessage(msgs[0], p, unwritable, storeErrors, mailbox);
      if first.stop.None? {
        LoopTotal(msgs[1..], p, unwritable, storeErrors, first.mailbox);
      }
    }
  }

  /** With deletion on, a completed loop stores `\Deleted` for every
      collected message, in order, and each message present on the server
      ends up flagged. */
  lemma {:induction false} LoopDeletesEveryMessage(msgs: seq<Message>, p: Processing, unwritable: set<string>, storeErrors: map<nat, string>, mailbox: Mailbox)
    ensures var r := ProcessMessages(msgs, p, unwritable, storeErrors, mailbox);
      p.delete && r.stop.None? ==>
        && Stored(r.effects) == SeqNums(msgs)
        && forall k :: 0 <= k < |msgs| && msgs[k].seqNum in mailbox ==> DeletedFlag in r.mailbox[msgs[k].seqNum]
  {
    LoopStoresInOrder(msgs, p, unwritable, storeErrors, mailbox);
    LoopFlagsEveryMessage(msgs, p, unwritable, storeErrors, mailbox);
  }

  lemma {:induction false} LoopStoresInOrder(msgs: seq<Message>, p: Processing, unwritable: set<string>, storeErrors: map<nat, string>, mailbox: Mailbox)
    ensures var r := ProcessMessages(msgs, p, unwritable, storeErrors, mailbox);
      p.delete && r.stop.None? ==> Stored(r.effects) == SeqNums(msgs)
    decreases |msgs|
  {
    if |msgs| > 0 {
      var first := ProcessMessage(msgs[0], p, unwritable, storeErrors, mailbox);
      if first.stop.None? {
        var rest := ProcessMessages(msgs[1..], p, unwritable, storeErrors, first.mailbox);
        LoopStoresInOrder(msgs[1..], p, unwritable, storeErrors, first.mailbox);
        StoredAppend(first.effects, rest.effects);
        assert SeqNums(msgs) == [msgs[0].seqNum] + SeqNums(msgs[1..]);
      }
    }
  }

  lemma {:induction false} LoopFlagsEveryMessage(msgs: seq<Message>, p: Processing, unwritable: set<string>, storeErrors: map<nat, string>, mailbox: Mailbox)
    ensures var r := ProcessMessages(msgs, p, unwritable, storeErrors, mailbox);
      p.delete && r.stop.None? ==>
        forall k :: 0 <= k < |msgs| && msgs[k].seqNum in mailbox ==> DeletedFlag in r.mailbox[msgs[k].seqNum]
    decreases |msgs|
  {
    if |msgs| > 0 {
      var first := ProcessMessage(msgs[0], p, unwritable, storeErrors, mailbox);
      if first.stop.None? {
        LoopFlagsEveryMessage(msgs[1..], p, unwritable, storeErrors, first.mailbox);
        assert forall k :: 1 <= k < |msgs| ==> msgs[k] == msgs[1..][k - 1];
      }
    }
  }

  /** A message as collected, carrying exactly one allowed, writable book. */
  predicate OneBook(m: Message, p: Processing, unwritable: set<string>, storeErrors: map<nat, string>)
  {
    && m.reader.None?
    && m.body.Some? && m.body.value.parsed.Ok?
    && |Senders(m.body.value.parsed.value.header)| > 0
    && |m.body.value.parsed.value.parts| == 1
    && m.body.value.parsed.value.parts[0].Next?
    && Saves(m.body.value.parsed.value.parts[0].part, p.filetypes)
    && TargetPath(p.libraryPath, m.body.value.parsed.value.parts[0].part.filename) !in unwritable
    && m.seqNum !in storeErrors
  }

  /** A message with one allowed, writable book is healthy and yields one
      book. */
  lemma OneBookIsHealthy(m: Message, p: Processing, unwritable: set<string>, storeErrors: map<nat, string>)
    requires OneBook(m, p, unwritable, storeErrors)
    ensures Healthy(m, p, unwritable, storeErrors) && Expected(m, p) == 1
  {
    var rd := m.body.value.parsed.value;
    var part := rd.parts[0].part;
    assert Parts(rd.parts) == [part] by {
      assert rd.parts[1..] == [];
    }
    assert Wanted([part], p.filetypes, p.libraryPath) == [FileWrite(TargetPath(p.libraryPath, part.filename), part.content)] by {
      assert [part][1..] == [];
    }
  }

  lemma {:induction false} ExpectedTotalOfBooks(msgs: seq<Message>, p: Processing, unwritable: set<string>, storeErrors: map<nat, string>)
    requires forall k :: 0 <= k < |msgs| ==> OneBook(msgs[k], p, unwritable, storeErrors)
    ensures ExpectedTotal(msgs, p) == |msgs|
    decreases |msgs|
  {
    if |msgs| > 0 {
      OneBookIsHealthy(msgs[0], p, unwritable, storeErrors);
      assert forall k :: 0 <= k < |msgs[1..]| ==> msgs[1..][k] == msgs[k + 1];
      ExpectedTotalOfBooks(msgs[1..], p, unwritable, storeErrors);
    }
  }

  /** N messages with one allowed book each: N books processed, and N
      messages flagged deleted exactly when deletion is on. */
  lemma EveryBookProcessed(msgs: seq<Message>, p: Processing, unwritable: set<string>, storeErrors: map<nat, string>, mailbox: Mailbox)
    requires forall k :: 0 <= k < |msgs| ==> OneBook(msgs[k], p, unwritable, storeErrors)
    ensures var r := ProcessMessages(msgs, p, unwritable, storeErrors, mailbox);
      && r.stop.None? && r.total == |msgs|
      && Stored(r.effects) == (if p.delete then SeqNums(msgs) else [])
  {
    forall k | 0 <= k < |msgs|
      ensures Healthy(msgs[k], p, unwritable, storeErrors)
    {
      OneBookIsHealthy(msgs[k], p, unwritable, storeErrors);
    }
    LoopCompletesIffAllHealthy(msgs, p, unwritable, storeErrors, mailbox);
    ExpectedTotalOfBooks(msgs, p, unwritable, storeErrors);
    LoopDeletesEveryMessage(msgs, p, unwritable, storeErrors, mailbox);
  }

  // ---------------------------------------------------------------------
  // Completion

  /** The completion step: with books and NickelDbus one rescan (its error
      only logged) and the "Processed N new ebooks." dialog; with books and
      no NickelDbus the simulated cable; without books the "nothing to be
      done" dialog. The rescan's error is only logged (main.go:263-267) and
      has no effect here; `rescanError` is taken so that
      `RescanErrorOnlyLogged` can say so. */
  function Complete(total: nat, useNickelDbus: bool, showNotifications: bool, fullScan: bool, rescanError: Option<RescanError>): (t: seq<Effect>)
    ensures NoHotplug(t) <==> total == 0 || useNickelDbus
    ensures NoRescan(t) <==> total == 0 || !useNickelDbus
    ensures NoDialog(t) <==> !(useNickelDbus && showNotifications)
    ensures total > 0 && useNickelDbus ==> |t| > 0 && t[0] == RescanRequested(RescanTimeoutSeconds, fullScan)
    ensures total > 0 && !useNickelDbus ==> t == HotplugSimulation()
    ensures NoLogout(t) && Stored(t) == []
  {
    var t := if total > 0 then
      if useNickelDbus then
        [RescanRequested(RescanTimeoutSeconds, fullScan)] + ShowDialog(useNickelDbus, showNotifications, Processed(total), true)
      else HotplugSimulation()
    else ShowDialog(useNickelDbus, showNotifications, NothingToDo, true);
    assert forall k :: 0 <= k < |t| ==> !t[k].Store?;
    NoStores(t);
    t
  }

  lemma {:induction false} NoStores(t: seq<Effect>)
    requires forall k :: 0 <= k < |t| ==> !t[k].Store?
    ensures Stored(t) == []
    decreases |t|
  {
    if |t| > 0 {
      NoStores(t[1..]);
    }
  }

  /** A failed rescan changes nothing about the completion. */
  lemma RescanErrorOnlyLogged(total: nat, useNickelDbus: bool, showNotifications: bool, fullScan: bool, e1: Option<RescanError>, e2: Option<RescanError>)
    ensures Complete(total, useNickelDbus, showNotifications, fullScan, e1) == Complete(total, useNickelDbus, showNotifications, fullScan, e2)
  {
  }

  // ---------------------------------------------------------------------
  // Run

  datatype Exit =
    | Completed(total: nat)
    | ExitedEarly
    | Fatal(notice: Notice)
    | Crashed(reason: string)

  datatype RunOutcome = RunOutcome(trace: seq<Effect>, exit: Exit)

  /** The notices a connected session can stop with. */
  predicate SessionNotice(n: Notice)
  {
    n.AuthFailed? || n.SelectFailed? || n.FetchFailed? || LoopNotice(n)
  }

  /** What holds of every run: dialogs only behind the gate, the rescan
      exactly on a completed run with books and NickelDbus, the simulated
      cable exactly on a completed run with books and no NickelDbus, the
      deferred logout exactly on a normal
      return or a panic (a fatal log exits without running deferred calls,
      a panic unwinds through them), and no STORE unless deleting. */
  predicate WellBehaved(r: RunOutcome, useNickelDbus: bool, showNotifications: bool, delete: bool)
  {
    && (!(useNickelDbus && showNotifications) ==> NoDialog(r.trace))
    && (!NoHotplug(r.trace) <==> !useNickelDbus && r.exit.Completed? && r.exit.total > 0)
    && (!NoRescan(r.trace) <==> useNickelDbus && r.exit.Completed? && r.exit.total > 0)
    && (r.exit.Completed? || r.exit.Crashed? <==> !NoLogout(r.trace))
    && (!delete ==> Stored(r.trace) == [])
  }

  /** `t` finishes with `suffix`. */
  predicate EndsWith(t: seq<Effect>, suffix: seq<Effect>)
  {
    |suffix| <= |t| && t[|t| - |suffix|..] == suffix
  }

  /** A stretch of trace before the run's end: gated dialogs and mail work
      only. */
  predicate Quiet(t: seq<Effect>, useNickelDbus: bool, showNotifications: bool, delete: bool)
  {
    && (!(useNickelDbus && showNotifications) ==> NoDialog(t))
    && NoHotplug(t) && NoRescan(t) && NoLogout(t)
    && (!delete ==> Stored(t) == [])
  }

  lemma {:induction false} TraceAppend(a: seq<Effect>, b: seq<Effect>)
    ensures NoDialog(a + b) <==> NoDialog(a) && NoDialog(b)
    ensures NoHotplug(a + b) <==> NoHotplug(a) && NoHotplug(b)
    ensures NoRescan(a + b) <==> NoRescan(a) && NoRescan(b)
    ensures NoLogout(a + b) <==> NoLogout(a) && NoLogout(b)
    ensures Stored(a + b) == Stored(a) + Stored(b)
  {
    assert forall k :: 0 <= k < |a| ==> (a + b)[k] == a[k];
    assert forall k :: 0 <= k < |b| ==> (a + b)[|a| + k] == b[k];
    StoredAppend(a, b);
  }

  lemma QuietAppend(a: seq<Effect>, b: seq<Effect>, useNickelDbus: bool, showNotifications: bool, delete: bool)
    requires Quiet(a, useNickelDbus, showNotifications, delete)
    requires Quiet(b, useNickelDbus, showNotifications, delete)
    ensures Quiet(a + b, useNickelDbus, showNotifications, delete)
  {
    TraceAppend(a, b);
  }

  /** The message loop's effects are quiet. */
  lemma MailWorkIsQuiet(t: seq<Effect>, useNickelDbus: bool, showNotifications: bool, delete: bool)
    requires OnlyMailWork(t)
    requires !delete ==> Stored(t) == []
    ensures Quiet(t, useNickelDbus, showNotifications, delete)
  {
  }

  /** A quiet prefix keeps a run well behaved. */
  lemma QuietPrefix(a: seq<Effect>, r: RunOutcome, useNickelDbus: bool, showNotifications: bool, delete: bool)
    requires Quiet(a, useNickelDbus, showNotifications, delete)
    requires WellBehaved(r, useNickelDbus, showNotifications, delete)
    ensures WellBehaved(RunOutcome(a + r.trace, r.exit), useNickelDbus, showNotifications, delete)
  {
    TraceAppend(a, r.trace);
  }

  lemma {:induction false} DialogsAreQuiet(t: seq<Effect>, useNickelDbus: bool, showNotifications: bool, delete: bool)
    requires forall k :: 0 <= k < |t| ==> IsDialog(t[k])
    requires !(useNickelDbus && showNotifications) ==> NoDialog(t)
    ensures Quiet(t, useNickelDbus, showNotifications, delete)
  {
    NoStores(t);
  }

  /** A run that ends before the completion step, with a dialog saying
      why. */
  function Stopped(useNickelDbus: bool, showNotifications: bool, delete: bool, notice: Notice, exit: Exit): (r: RunOutcome)
    requires !exit.Completed? && !exit.Crashed?
    ensures WellBehaved(r, useNickelDbus, showNotifications, delete)
    ensures r.exit == exit && Stored(r.trace) == []
    ensures useNickelDbus && showNotifications ==> r.trace == [DialogCreate(notice), DialogOk]
  {
    var t := ShowDialog(useNickelDbus, showNotifications, notice, true);
    DialogsAreQuiet(t, useNickelDbus, showNotifications, delete);
    NoStores(t);
    RunOutcome(t, exit)
  }

  /** The completion step after a loop that processed every message,
      then the deferred logout. The rescan runs with the corrected
      thirty-second timeout and its outcome is only logged. */
  function Completion(cfg: Config, useNickelDbus: bool, total: nat, env: Environment): (r: RunOutcome)
    ensures WellBehaved(r, useNickelDbus, cfg.showNotifications, cfg.delete)
    ensures r.exit == Completed(total) && Stored(r.trace) == []
    ensures |r.trace| > 0 && r.trace[|r.trace| - 1] == Logout
    ensures total > 0 && useNickelDbus ==> r.trace[0] == RescanRequested(RescanTimeoutSeconds, cfg.fullRescan)
    ensures r.trace == Complete(total, useNickelDbus, cfg.showNotifications, cfg.fullRescan,
                                LibraryRescan(RescanTimeoutSeconds, cfg.fullRescan, env.matchError, env.arrivals).error) + [Logout]
  {
    var rescan := LibraryRescan(RescanTimeoutSeconds, cfg.fullRescan, env.matchError, env.arrivals);
    var done := Complete(total, useNickelDbus, cfg.showNotifications, cfg.fullRescan, rescan.error);
    LogoutLast(done);
    RunOutcome(done + [Logout], Completed(total))
  }

  /** The deferred logout appended to a trace that has none. */
  lemma LogoutLast(t: seq<Effect>)
    requires NoLogout(t)
    ensures var u := t + [Logout];
      && (NoDialog(u) <==> NoDialog(t)) && (NoHotplug(u) <==> NoHotplug(t)) && (NoRescan(u) <==> NoRescan(t))
      && !NoLogout(u) && Stored(u) == Stored(t)
      && u[|u| - 1] == Logout && (|t| > 0 ==> u[0] == t[0])
  {
    var u := t + [Logout];
    TraceAppend(t, [Logout]);
    assert u[|t|] == Logout;
    assert Stored([Logout]) == [];
  }

  lemma OnlyLoopStores(found: seq<Effect>, effects: seq<Effect>, tail: seq<Effect>)
    requires Stored(found) == [] && Stored(tail) == []
    ensures Stored(found + effects + tail) == Stored(effects)
  {
    StoredAppend(found, effects);
    StoredAppend(found + effects, tail);
  }

  /** What follows the message loop: its failure (a dialog; or a panic,
      which shows none but still runs the deferred logout), or the
      completion step and the logout. */
  function Conclude(cfg: Config, useNickelDbus: bool, progress: Progress, env: Environment): (r: RunOutcome)
    ensures WellBehaved(r, useNickelDbus, cfg.showNotifications, cfg.delete)
    ensures r.exit.Completed? <==> progress.stop.None?
    ensures r.exit.Completed? ==> r.exit.total == progress.total
    ensures r.exit.Fatal? ==> progress.stop == Some(Abort(r.exit.notice))
    ensures r.exit.Crashed? ==> progress.stop == Some(Crash(r.exit.reason)) && r.trace == [Logout]
    ensures r.exit.Completed? ==> r == Completion(cfg, useNickelDbus, progress.total, env)
    ensures Stored(r.trace) == []
  {
    match progress.stop
    case Some(Crash(reason)) =>
      assert Stored([Logout]) == [] && !NoLogout([Logout]);
      RunOutcome([Logout], Crashed(reason))
    case Some(Abort(notice)) => Stopped(useNickelDbus, cfg.showNotifications, cfg.delete, notice, Fatal(notice))
    case None => Completion(cfg, useNickelDbus, progress.total, env)
  }

  /** The count dialog, the loop's effects, then what follows the loop. */
  function AfterLoop(cfg: Config, useNickelDbus: bool, count: nat, progress: Progress, env: Environment): (r: RunOutcome)
    requires OnlyMailWork(progress.effects)
    requires !cfg.delete ==> Stored(progress.effects) == []
    ensures WellBehaved(r, useNickelDbus, cfg.showNotifications, cfg.delete)
    ensures r.exit.Completed? <==> progress.stop.None?
    ensures r.exit.Completed? ==> r.exit.total == progress.total
    ensures r.exit.Fatal? ==> progress.stop == Some(Abort(r.exit.notice))
    ensures r.exit.Crashed? ==> progress.stop == Some(Crash(r.exit.reason))
    ensures r.exit.Completed? ==> EndsWith(r.trace, Completion(cfg, useNickelDbus, progress.total, env).trace)
    ensures Stored(r.trace) == Stored(progress.effects)
  {
    var show := cfg.showNotifications;
    var found := UpdateDialog(useNickelDbus, show, Found(count), false);
    DialogsAreQuiet(found, useNickelDbus, show, cfg.delete);
    DialogsAreQuiet(found, useNickelDbus, show, false);
    var tail := Conclude(cfg, useNickelDbus, progress, env);
    MailWorkIsQuiet(progress.effects, useNickelDbus, show, cfg.delete);
    QuietAppend(found, progress.effects, useNickelDbus, show, cfg.delete);
    var before := found + progress.effects;
    QuietPrefix(before, tail, useNickelDbus, show, cfg.delete);
    OnlyLoopStores(found, progress.effects, tail.trace);
    RunOutcome(before + tail.trace, tail.exit)
  }

  /** The collected messages onwards: "nothing to be done" when there are
      none; otherwise the count dialog, the message loop, and either the
      loop's failure or the completion step and the logout. */
  function RunMessages(cfg: Config, useNickelDbus: bool, msgs: seq<Message>, env: Environment): (r: RunOutcome)
    ensures WellBehaved(r, useNickelDbus, cfg.showNotifications, cfg.delete)
    ensures r.exit == ExitedEarly <==> |msgs| == 0
    ensures r.exit.Completed? <==>
      |msgs| > 0 && forall k :: 0 <= k < |msgs| ==> Healthy(msgs[k], Processing(cfg.filetypes, cfg.libraryPath, cfg.delete), env.unwritable, env.storeErrors)
    ensures r.exit.Completed? ==> r.exit.total == ExpectedTotal(msgs, Processing(cfg.filetypes, cfg.libraryPath, cfg.delete))
    ensures r.exit.Completed? && cfg.delete ==> Stored(r.trace) == SeqNums(msgs)
    ensures r.exit.Fatal? ==> LoopNotice(r.exit.notice)
    ensures r.exit.Crashed? ==>
      r.exit.reason == FailureText(SenderMissing) && exists k :: 0 <= k < |msgs| && FetchDetails(msgs[k]).failure == Some(SenderMissing)
    ensures r.exit.Completed? ==> EndsWith(r.trace, Completion(cfg, useNickelDbus, r.exit.total, env).trace)
  {
    if |msgs| == 0 then Stopped(useNickelDbus, cfg.showNotifications, cfg.delete, NothingToDo, ExitedEarly)
    else
      var p := Processing(cfg.filetypes, cfg.libraryPath, cfg.delete);
      var progress := ProcessMessages(msgs, p, env.unwritable, env.storeErrors, env.mailbox);
      LoopCompletesIffAllHealthy(msgs, p, env.unwritable, env.storeErrors, env.mailbox);
      LoopDeletesEveryMessage(msgs, p, env.unwritable, env.storeErrors, env.mailbox);
      AfterLoop(cfg, useNickelDbus, |msgs|, progress, env)
  }

  /** `Run` once connected: login, mailbox selection, the search with the
      configured flag criteria, the collection, then the messages; a fatal
      exit (and its dialog) at the first error. */
  function RunSession(cfg: Config, useNickelDbus: bool, conn: Connection, env: Environment): (r: RunOutcome)
    ensures WellBehaved(r, useNickelDbus, cfg.showNotifications, cfg.delete)
    ensures env.loginError.Some? ==> r.exit == Fatal(AuthFailed(env.loginError.value))
    ensures env.loginError.None? && env.selectError.Some? ==> r.exit == Fatal(SelectFailed(cfg.folder, env.selectError.value))
    ensures env.loginError.None? && env.selectError.None? ==>
      |r.trace| > 0 && r.trace[0] == SearchIssued(WithFlagCriteria(conn.criteria, cfg.unseen, cfg.flagType, cfg.flag, cfg.user))
    ensures r.exit == ExitedEarly <==>
      env.loginError.None? && env.selectError.None? && env.search.Ok? && CollectMessages(env.search, env.fetch).error.None?
      && CollectMessages(env.search, env.fetch).messages == []
    ensures r.exit.Fatal? ==> SessionNotice(r.exit.notice)
  {
    var show := cfg.showNotifications;
    if env.loginError.Some? then
      Stopped(useNickelDbus, show, cfg.delete, AuthFailed(env.loginError.value), Fatal(AuthFailed(env.loginError.value)))
    else if env.selectError.Some? then
      var notice := SelectFailed(cfg.folder, env.selectError.value);
      Stopped(useNickelDbus, show, cfg.delete, notice, Fatal(notice))
    else
      var searched := [SearchIssued(WithFlagCriteria(conn.criteria, cfg.unseen, cfg.flagType, cfg.flag, cfg.user))];
      assert Quiet(searched, useNickelDbus, show, cfg.delete);
      var collected := CollectMessages(env.search, env.fetch);
      var rest := if collected.error.Some? then
        var notice := FetchFailed(collected.error.value);
        Stopped(useNickelDbus, show, cfg.delete, notice, Fatal(notice))
      else RunMessages(cfg, useNickelDbus, collected.messages, env);
      QuietPrefix(searched, rest, useNickelDbus, show, cfg.delete);
      RunOutcome(searched + rest.trace, rest.exit)
  }

  /** `Run`: the start-up dialog, the connection, then the session. */
  method Run(cfg: Config, useNickelDbus: bool, env: Environment) returns (r: RunOutcome)
    ensures WellBehaved(r, useNickelDbus, cfg.showNotifications, cfg.delete)
    ensures useNickelDbus && cfg.showNotifications ==> |r.trace| > 0 && r.trace[0] == DialogCreate(StartingUp)
    ensures (forall k :: 0 <= k < MaxDialAttempts ==> env.dial(k).DialFailed?) <==>
      r.exit == Fatal(ConnectFailed(cfg.host, cfg.port))
  {
    var starting := ShowDialog(useNickelDbus, cfg.showNotifications, StartingUp, false);
    DialogsAreQuiet(starting, useNickelDbus, cfg.showNotifications, cfg.delete);
    var conn := ConnectToServer(cfg.host, cfg.port, env.dial);
    var rest: RunOutcome;
    if conn.Err? {
      var notice := ConnectFailed(cfg.host, cfg.port);
      rest := Stopped(useNickelDbus, cfg.showNotifications, cfg.delete, notice, Fatal(notice));
    } else {
      rest := RunSession(cfg, useNickelDbus, conn.value, env);
    }
    QuietPrefix(starting, rest, useNickelDbus, cfg.showNotifications, cfg.delete);
    r := RunOutcome(starting + rest.trace, rest.exit);
  }

  // ---------------------------------------------------------------------
  // The rescan timeout

  /** As written, a rescan whose done signal never comes holds the run for
      30000 seconds, more than eight hours. */
  lemma AsWrittenRescanTimeoutExceedsEightHours(fullScan: bool)
    ensures var r := LibraryRescan(RescanTimeoutAsWritten, fullScan, None, []);
      r.error == Some(TimedOut) && r.waitedMillis == 30000 * 1000 && r.waitedMillis > 8 * 3600 * 1000
  {
  }

  /** With the intended timeout the wait ends after thirty seconds, and a
      done signal that arrives within them still succeeds. */
  lemma RescanTimeoutIsThirtySeconds(fullScan: bool, atMillis: nat)
    ensures var r := LibraryRescan(RescanTimeoutSeconds, fullScan, None, []);
      r.error == Some(TimedOut) && r.waitedMillis == 30 * 1000
    ensures atMillis < 30 * 1000 ==>
      LibraryRescan(RescanTimeoutSeconds, fullScan, None, [Arrival(atMillis, DoneSignal)]).error.None?
  {
  }
}

=== FILE: legacy.dfy ===
/** The legacy entry point of KoboMail (kobomail.go): its string-typed
    switches, its search criteria and its completion step.

    The legacy completion shows its dialogs only when NickelDbus is in use
    (kobomail.go:221-235), whatever the notification setting. The rescan is
    `LibraryRescanFull` with the string timeout "30000"; that function is
    not part of this model, so only the call is recorded. */
module Legacy {
  import opened Search
  import opened Effects
  import KoboMail
  import opened Outcomes
  import Attachments
  import Session
  import NickelDbus

  /** The value that turns a string switch on. */
  const On := "true"

  /** `EmailUnseen == "true"` and `EmailDelete == "true"`: only the exact
      string turns a switch on. */
  predicate Enabled(s: string)
  {
    s == On
  }

  /** Near misses leave a switch off. */
  lemma OnlyExactTrueEnables(s: string)
    ensures Enabled(s) <==> |s| == 4 && s[0] == 't' && s[1] == 'r' && s[2] == 'u' && s[3] == 'e'
    ensures !Enabled("True") && !Enabled("TRUE") && !Enabled("1") && !Enabled("yes") && !Enabled(" true")
  {
    if |s| == 4 && s[0] == 't' && s[1] == 'r' && s[2] == 'u' && s[3] == 'e' {
      assert s == On;
    }
    assert "True"[0] != 't';
    assert "TRUE"[0] != 't';
    assert " true"[0] != 't';
  }

  /** The legacy search set-up: `\Seen` excluded when the unseen switch is
      on, then at most one header matcher, the tagged address for "plus" and
      the flag for "subject". */
  function LegacyCriteria(base: Criteria, emailUnseen: string, flagType: string, flag: string, user: string): (c: Criteria)
    ensures c.withoutFlags == (if Enabled(emailUnseen) then [SeenFlag] else base.withoutFlags)
    ensures flagType == FlagTypePlus ==> c.header == base.header + [HeaderField(ToKey, TaggedAddress(user, flag))]
    ensures flagType == FlagTypeSubject ==> c.header == base.header + [HeaderField(SubjectKey, flag)]
    ensures flagType != FlagTypePlus && flagType != FlagTypeSubject ==> c.header == base.header
  {
    var flags := if emailUnseen == On then [SeenFlag] else base.withoutFlags;
    var extra := if flagType == FlagTypePlus then [HeaderField(ToKey, TaggedAddress(user, flag))]
      else if flagType == FlagTypeSubject then [HeaderField(SubjectKey, flag)]
      else [];
    Criteria(flags, base.header + extra)
  }

  /** The legacy and the current search agree once the string switch is
      read as a boolean. */
  lemma LegacySearchMatchesCurrent(base: Criteria, emailUnseen: string, flagType: string, flag: string, user: string)
    ensures LegacyCriteria(base, emailUnseen, flagType, flag, user)
         == WithFlagCriteria(base, Enabled(emailUnseen), flagType, flag, user)
  {
    var c := LegacyCriteria(base, emailUnseen, flagType, flag, user);
    var d := WithFlagCriteria(base, Enabled(emailUnseen), flagType, flag, user);
    if flagType != FlagTypePlus && flagType != FlagTypeSubject {
      assert c.header == base.header == d.header;
    }
  }

  /** The processing settings of the legacy loop: deletion only for the
      exact string "true". */
  function LegacyProcessing(filetypes: seq<string>, libraryPath: string, emailDelete: string): (p: KoboMail.Processing)
    ensures p.delete <==> emailDelete == On
    ensures p.filetypes == filetypes && p.libraryPath == libraryPath
  {
    KoboMail.Processing(filetypes, libraryPath, emailDelete == On)
  }

  /** A delete switch other than "true" never flags a message. */
  lemma NoDeleteUnlessTrue(msgs: seq<Attachments.Message>, filetypes: seq<string>, libraryPath: string, emailDelete: string,
                           unwritable: set<string>, storeErrors: map<nat, string>, mailbox: Session.Mailbox)
    requires emailDelete != On
    ensures var r := KoboMail.ProcessMessages(msgs, LegacyProcessing(filetypes, libraryPath, emailDelete), unwritable, storeErrors, mailbox);
      r.mailbox == mailbox && Stored(r.effects) == []
  {
  }

  /** The timeout string the legacy rescan is given. */
  const LegacyRescanTimeout := "30000"

  /** The legacy completion step: with NickelDbus, a full rescan and the
      "Processed N new ebooks." dialog for books, the "nothing to be done"
      dialog otherwise, never the cable; without it, the simulated cable
      only for books and no dialog. */
  function LegacyComplete(total: nat, useNickelDbus: bool): (t: seq<Effect>)
    ensures NoHotplug(t) <==> total == 0 || useNickelDbus
    ensures NoRescan(t) <==> total == 0 || !useNickelDbus
    ensures NoDialog(t) <==> !useNickelDbus
    ensures total > 0 && useNickelDbus ==> |t| > 0 && t[0] == LegacyFullRescan(LegacyRescanTimeout)
    ensures useNickelDbus ==> |t| >= 2 && t[|t| - 2..] == [DialogCreate(if total > 0 then Processed(total) else NothingToDo), DialogOk]
    ensures !useNickelDbus ==> t == (if total > 0 then HotplugSimulation() else [])
  {
    if useNickelDbus then
      if total > 0 then
        var t := [LegacyFullRescan(LegacyRescanTimeout), DialogCreate(Processed(total)), DialogOk];
        assert IsDialog(t[1]) && t[0].LegacyFullRescan?;
        t
      else
        var t := [DialogCreate(NothingToDo), DialogOk];
        assert IsDialog(t[0]);
        t
    else if total > 0 then
      var t := HotplugSimulation();
      assert t[0].HardwareStatus?;
      t
    else []
  }

  /** With notifications on, the two versions complete alike: the same
      dialogs and the same cable, differing only in how the rescan is
      asked for. */
  lemma CompletionsAgree(total: nat, useNickelDbus: bool, fullScan: bool, rescanError: Option<NickelDbus.RescanError>)
    ensures total > 0 && useNickelDbus ==>
      KoboMail.Complete(total, useNickelDbus, true, fullScan, rescanError)
        == [RescanRequested(KoboMail.RescanTimeoutSeconds, fullScan)] + LegacyComplete(total, useNickelDbus)[1..]
    ensures !(total > 0 && useNickelDbus) ==>
      KoboMail.Complete(total, useNickelDbus, true, fullScan, rescanError) == LegacyComplete(total, useNickelDbus)
  {
    var current := KoboMail.Complete(total, useNickelDbus, true, fullScan, rescanError);
    if total > 0 && useNickelDbus {
      CurrentAnnouncesBooks(total, fullScan, rescanError);
      assert LegacyComplete(total, true)[1..] == [DialogCreate(Processed(total)), DialogOk];
    } else if useNickelDbus {
      CurrentAnnouncesNothing(fullScan, rescanError);
    } else {
      CurrentWithoutBus(total, fullScan, rescanError);
    }
  }

  lemma CurrentAnnouncesBooks(total: nat, fullScan: bool, rescanError: Option<NickelDbus.RescanError>)
    requires total > 0
    ensures KoboMail.Complete(total, true, true, fullScan, rescanError)
         == [RescanRequested(KoboMail.RescanTimeoutSeconds, fullScan), DialogCreate(Processed(total)), DialogOk]
  {
    assert KoboMail.ShowDialog(true, true, Processed(total), true) == [DialogCreate(Processed(total)), DialogOk];
  }

  lemma CurrentAnnouncesNothing(fullScan: bool, rescanError: Option<NickelDbus.RescanError>)
    ensures KoboMail.Complete(0, true, true, fullScan, rescanError) == [DialogCreate(NothingToDo), DialogOk]
  {
  }

  lemma CurrentWithoutBus(total: nat, fullScan: bool, rescanError: Option<NickelDbus.RescanError>)
    ensures KoboMail.Complete(total, false, true, fullScan, rescanError) == (if total > 0 then HotplugSimulation() else [])
  {
  }
}

=== FILE: logging.dfy ===
/** The log level setting of KoboMail (internal/logging/main.go): a
    case-insensitive match on three names, with Info for anything else. */
module Logging {

  /** The zap levels the setting can select. */
  datatype Level = DebugLevel | InfoLevel | WarnLevel | ErrorLevel

  /** `strings.ToLower` on one character, for the ASCII letters. */
  function LowerChar(c: char): char
  {
    if 'A' <= c <= 'Z' then (c as int - 'A' as int + 'a' as int) as char else c
  }

  function ToLower(s: string): (t: string)
    ensures |t| == |s|
    ensures forall k :: 0 <= k < |s| ==> t[k] == LowerChar(s[k])
  {
    seq(|s|, k requires 0 <= k < |s| => LowerChar(s[k]))
  }

  /** `s` spells the lower-case `word` in any mix of cases. */
  predicate EqualsIgnoreCase(s: string, word: string)
  {
    |s| == |word| && forall k :: 0 <= k < |s| ==> LowerChar(s[k]) == word[k]
  }

  const DebugName := "debug"
  const ErrorName := "error"
  const WarnName := "warn"

  /** `LoglevelToZapLevel`: "debug", "error" and "warn" in any case select
      their level; every other string, "info" included, selects Info. */
  function LoglevelToZapLevel(loglevel: string): (level: Level)
    ensures level == DebugLevel <==> EqualsIgnoreCase(loglevel, DebugName)
    ensures level == ErrorLevel <==> EqualsIgnoreCase(loglevel, ErrorName)
    ensures level == WarnLevel <==> EqualsIgnoreCase(loglevel, WarnName)
    ensures level == InfoLevel <==>
      !EqualsIgnoreCase(loglevel, DebugName) && !EqualsIgnoreCase(loglevel, ErrorName) && !EqualsIgnoreCase(loglevel, WarnName)
  {
    var lower := ToLower(loglevel);
    assert lower == DebugName <==> EqualsIgnoreCase(loglevel, DebugName);
    assert lower == ErrorName <==> EqualsIgnoreCase(loglevel, ErrorName);
    assert lower == WarnName <==> EqualsIgnoreCase(loglevel, WarnName);
    if lower == DebugName then DebugLevel
    else if lower == ErrorName then ErrorLevel
    else if lower == WarnName then WarnLevel
    else InfoLevel
  }

  /** Lower-casing the setting first changes nothing. */
  lemma LevelIgnoresCase(loglevel: string)
    ensures LoglevelToZapLevel(ToLower(loglevel)) == LoglevelToZapLevel(loglevel)
  {
    var lower := ToLower(loglevel);
    assert forall k :: 0 <= k < |lower| ==> LowerChar(lower[k]) == lower[k];
    assert ToLower(lower) == lower;
  }

  /** Upper and mixed case select the named level. */
  lemma NamesMatchInAnyCase()
    ensures LoglevelToZapLevel("DEBUG") == DebugLevel
    ensures LoglevelToZapLevel("Warn") == WarnLevel
    ensures LoglevelToZapLevel("ERROR") == ErrorLevel
  {
    assert EqualsIgnoreCase("DEBUG", DebugName);
    assert EqualsIgnoreCase("Warn", WarnName);
    assert EqualsIgnoreCase("ERROR", ErrorName);
  }

  /** Near names, unknown names and the empty string fall back to Info. */
  lemma OtherNamesFallBackToInfo()
    ensures LoglevelToZapLevel("warning") == InfoLevel
    ensures LoglevelToZapLevel("fatal") == InfoLevel
    ensures LoglevelToZapLevel("info") == InfoLevel
    ensures LoglevelToZapLevel("") == InfoLevel
  {
    assert LowerChar("fatal"[0]) != DebugName[0] && LowerChar("fatal"[0]) != ErrorName[0];
    assert LowerChar("info"[0]) != WarnName[0];
  }
}

=== FILE: nickeldbus.dfy ===
/** The NickelDbus library rescan of KoboMail (pkg/nickeldbus/library.go):
    subscribe to the "done processing" signal, trigger the scan, then wait
    for whichever comes first, a signal or the timer.

    D-Bus itself is not modelled. The subscription's success is an input,
    the bus calls made are recorded in order, and the signals are given as
    arrivals (milliseconds after the scan was triggered) in arrival order. */
module NickelDbus {
  import opened Outcomes

  const Interface := "com.github.shermp.nickeldbus"
  const ObjectPath := "/nickeldbus"
  /** The NickelDbus version KoboMail is written against. */
  const DesiredVersion := "0.2.0"
  const DoneMember := "pfmDoneProcessing"
  const DoneSignal := Interface + "." + DoneMember
  const IncrementalScan := "pfmRescanBooks"
  const FullScan := "pfmRescanBooksFull"

  datatype BusCall =
    | AddMatch(path: string, iface: string, member: string)
    | Subscribe
    | Invoke(member: string)

  /** A signal reaching the subscription channel. */
  datatype Arrival = Arrival(atMillis: nat, name: string)

  datatype RescanError =
    | MatchFailed(reason: string)
    | NotDoneSignal(reason: string)
    | UnexpectedSignal(name: string)
    | TimedOut

  datatype Rescan = Rescan(calls: seq<BusCall>, waitedMillis: nat, error: Option<RescanError>)

  /** The scan method: the full rescan when asked for, else the incremental one. */
  function ScanMethod(fullScan: bool): (m: string)
    ensures fullScan <==> m == FullScan
    ensures m == FullScan || m == IncrementalScan
  {
    if fullScan then FullScan else IncrementalScan
  }

  datatype SignalCheck = SignalCheck(valid: bool, error: Option<string>)

  /** `isDoneProcessingSignal`: (true, nil) for the done signal, otherwise
      (false, error); (false, nil) never occurs. */
  function IsDoneProcessingSignal(name: string): (r: SignalCheck)
    ensures r.valid <==> name == DoneSignal
    ensures r.valid <==> r.error.None?
  {
    if name != DoneSignal then SignalCheck(false, Some("isDoneProcessingSignal: not valid 'pfmDoneProcessing' signal"))
    else SignalCheck(true, None)
  }

  /** `time.After(timeoutSeconds * time.Second)`; a non-positive duration
      fires at once. */
  function DeadlineMillis(timeoutSeconds: int): nat
  {
    if timeoutSeconds <= 0 then 0 else timeoutSeconds * 1000
  }

  /** A signal wins the select when it arrives strictly before the timer. */
  predicate SignalFirst(timeoutSeconds: int, arrivals: seq<Arrival>)
  {
    |arrivals| > 0 && arrivals[0].atMillis < DeadlineMillis(timeoutSeconds)
  }

  function TriggerCalls(fullScan: bool): seq<BusCall>
  {
    [AddMatch(ObjectPath, Interface, DoneMember), Subscribe, Invoke(Interface + "." + ScanMethod(fullScan))]
  }

  /** `LibraryRescan`. */
  function LibraryRescan(timeoutSeconds: int, fullScan: bool, matchError: Option<string>, arrivals: seq<Arrival>): (r: Rescan)
    ensures |r.calls| > 0 && r.calls[0] == AddMatch(ObjectPath, Interface, DoneMember)
    ensures matchError.Some? ==>
      r.calls == [AddMatch(ObjectPath, Interface, DoneMember)] && r.error == Some(MatchFailed(matchError.value))
    ensures matchError.None? ==> r.calls == TriggerCalls(fullScan)
    ensures r.error.None? <==>
      matchError.None? && SignalFirst(timeoutSeconds, arrivals) && arrivals[0].name == DoneSignal
    ensures r.error == Some(TimedOut) <==> matchError.None? && !SignalFirst(timeoutSeconds, arrivals)
    ensures r.error == Some(TimedOut) ==> r.waitedMillis == DeadlineMillis(timeoutSeconds)
    ensures r.error != Some(TimedOut) && matchError.None? ==> r.waitedMillis < DeadlineMillis(timeoutSeconds)
    ensures r.error.Some? ==> !r.error.value.UnexpectedSignal?
    ensures matchError.None? && SignalFirst(timeoutSeconds, arrivals) && arrivals[0].name != DoneSignal ==>
      r.error == Some(NotDoneSignal(IsDoneProcessingSignal(arrivals[0].name).error.value))
  {
    if matchError.Some? then
      Rescan([AddMatch(ObjectPath, Interface, DoneMember)], 0, Some(MatchFailed(matchError.value)))
    else
      var calls := TriggerCalls(fullScan);
      var deadline := DeadlineMillis(timeoutSeconds);
      if SignalFirst(timeoutSeconds, arrivals) then
        var rs := arrivals[0];
        var check := IsDoneProcessingSignal(rs.name);
        if check.error.Some? then Rescan(calls, rs.atMillis, Some(NotDoneSignal(check.error.value)))
        else if !check.valid then Rescan(calls, rs.atMillis, Some(UnexpectedSignal(rs.name)))
        else Rescan(calls, rs.atMillis, None)
      else Rescan(calls, deadline, Some(TimedOut))
  }

  /** Only the first event decides: once a signal has won, whatever would
      have arrived afterwards makes no difference. */
  lemma OnlyFirstEventDecides(timeoutSeconds: int, fullScan: bool, matchError: Option<string>, first: Arrival, later1: seq<Arrival>, later2: seq<Arrival>)
    requires first.atMillis < DeadlineMillis(timeoutSeconds)
    ensures LibraryRescan(timeoutSeconds, fullScan, matchError, [first] + later1)
         == LibraryRescan(timeoutSeconds, fullScan, matchError, [first] + later2)
  {
  }

  /** The subscription is in place before the scan is triggered. */
  lemma SubscribeBeforeTrigger(timeoutSeconds: int, fullScan: bool, arrivals: seq<Arrival>)
    ensures var calls := LibraryRescan(timeoutSeconds, fullScan, None, arrivals).calls;
      exists i, j :: 0 <= i < j < |calls| && calls[i] == Subscribe && calls[j].Invoke?
  {
    var calls := LibraryRescan(timeoutSeconds, fullScan, None, arrivals).calls;
    assert calls[1] == Subscribe && calls[2].Invoke?;
  }
}

=== FILE: outcomes.dfy ===
/** Optional values and error-carrying results, standing in for Go's nil
    references and `(value, error)` return pairs. */
module Outcomes {

  datatype Option<+T> = None | Some(value: T)

  /** A value, or the error text Go would have returned instead. */
  datatype Result<+T> = Ok(value: T) | Err(error: string)
}

=== FILE: prerequisites.dfy ===
/** The integration prerequisites of KoboMail, current version
    (internal/kobomail/main.go) and legacy version (kobomail.go): which of
    the NickelMenu entry and the udev rules file end up on disk, and
    whether NickelDbus is used.

    The file system is reduced to presence flags: whether the NickelMenu
    folder exists, whether its KoboMail entry exists and whether the udev
    rules file exists. Each deploy or delete may fail with an error given
    as input; a failing operation changes nothing. */
module Prerequisites {
  import opened Outcomes
  import opened NickelDbus

  datatype Files = Files(menuInstalled: bool, menuConfig: bool, udevRules: bool)

  /** The error each file operation would return, None when it succeeds. */
  datatype FileOps = FileOps(
    deployMenu: Option<string>, deleteMenu: Option<string>,
    deployRules: Option<string>, deleteRules: Option<string>)

  /** No file operation fails. */
  function Reliable(): FileOps
  {
    FileOps(None, None, None, None)
  }

  datatype Prepared = Prepared(files: Files, error: Option<string>)

  const ManualNeedsMenu := "NickelMenu was not found, cannot run with manual execution type"

  function DeployMenu(files: Files, ops: FileOps): Prepared
  {
    if ops.deployMenu.Some? then Prepared(files, ops.deployMenu) else Prepared(files.(menuConfig := true), None)
  }

  function DeleteMenu(files: Files, ops: FileOps): Prepared
  {
    if ops.deleteMenu.Some? then Prepared(files, ops.deleteMenu) else Prepared(files.(menuConfig := false), None)
  }

  function DeployRules(files: Files, ops: FileOps): Prepared
  {
    if ops.deployRules.Some? then Prepared(files, ops.deployRules) else Prepared(files.(udevRules := true), None)
  }

  function DeleteRules(files: Files, ops: FileOps): Prepared
  {
    if ops.deleteRules.Some? then Prepared(files, ops.deleteRules) else Prepared(files.(udevRules := false), None)
  }

  // ---------------------------------------------------------------------
  // Current version

  /** `prepareNickelMenuIntegration`: after success the menu entry exists
      exactly when NickelMenu is installed and an entry is wanted. */
  function PrepareNickelMenuIntegration(files: Files, createEntry: bool, ops: FileOps): (r: Prepared)
    ensures r.files.menuInstalled == files.menuInstalled && r.files.udevRules == files.udevRules
    ensures r.error.None? ==> r.files.menuConfig == (files.menuInstalled && createEntry)
    ensures r.error.Some? ==> r.files == files
    ensures r.error.Some? ==> r.error == ops.deployMenu || r.error == ops.deleteMenu
  {
    if files.menuConfig then
      if !files.menuInstalled || !createEntry then DeleteMenu(files, ops) else Prepared(files, None)
    else if files.menuInstalled && createEntry then DeployMenu(files, ops)
    else Prepared(files, None)
  }

  /** `prepareWifiTrigger`: after success the rules file exists exactly when
      KoboMail runs on Wi-Fi connect; manual mode without NickelMenu is an
      error that changes nothing. */
  function PrepareWifiTrigger(files: Files, runOnWifiConnect: bool, ops: FileOps): (r: Prepared)
    ensures r.files.menuInstalled == files.menuInstalled && r.files.menuConfig == files.menuConfig
    ensures r.error.None? ==> r.files.udevRules == runOnWifiConnect
    ensures !runOnWifiConnect && !files.menuInstalled ==> r == Prepared(files, Some(ManualNeedsMenu))
    ensures r.error.Some? ==> r.files == files
  {
    if runOnWifiConnect then
      if !files.udevRules then DeployRules(files, ops) else Prepared(files, None)
    else if !files.menuInstalled then Prepared(files, Some(ManualNeedsMenu))
    else if files.udevRules then DeleteRules(files, ops)
    else Prepared(files, None)
  }

  /** The NickelDbus probe result: whether it will be used and whether a
      version mismatch was warned about. */
  datatype Probe = Probe(useNickelDbus: bool, mismatchWarned: bool)

  /** `prepareNickelDbusIntegration`: used exactly when installed; a version
      mismatch only warns; an error reading the version is returned. */
  function PrepareNickelDbusIntegration(installed: bool, version: Result<string>): (r: Result<Probe>)
    ensures r.Err? <==> installed && version.Err?
    ensures r.Ok? ==> r.value.useNickelDbus == installed
    ensures r.Ok? ==> (r.value.mismatchWarned <==> installed && version.value != DesiredVersion)
  {
    if installed then
      match version
      case Err(e) => Err("nickelDbus version check error: " + e)
      case Ok(v) => Ok(Probe(true, v != DesiredVersion))
    else Ok(Probe(false, false))
  }

  datatype Settings = Settings(createNickelMenuEntry: bool, runOnWifiConnect: bool)

  /** What `PreparePrerequisites` leaves behind: the `useNickelDbus` global
      (false unless the probe succeeded), the files and the error. */
  datatype Prerequisites = Prerequisites(useNickelDbus: bool, files: Files, error: Option<string>)

  /** `PreparePrerequisites`: the NickelDbus probe, then the Wi-Fi trigger,
      then the NickelMenu entry, stopping at the first error. */
  function PreparePrerequisites(installed: bool, version: Result<string>, files: Files, settings: Settings, ops: FileOps): (r: Prerequisites)
    ensures r.useNickelDbus ==> installed
    ensures installed && version.Ok? ==> r.useNickelDbus
    ensures installed && version.Err? ==> r == Prerequisites(false, files, Some(PrepareNickelDbusIntegration(installed, version).error))
    ensures PrepareNickelDbusIntegration(installed, version).Ok? && PrepareWifiTrigger(files, settings.runOnWifiConnect, ops).error.Some? ==>
      r.files == files && r.error == PrepareWifiTrigger(files, settings.runOnWifiConnect, ops).error
    ensures PrepareNickelDbusIntegration(installed, version).Ok? && PrepareWifiTrigger(files, settings.runOnWifiConnect, ops).error.None? ==>
      r.error == PrepareNickelMenuIntegration(PrepareWifiTrigger(files, settings.runOnWifiConnect, ops).files, settings.createNickelMenuEntry, ops).error
      && r.files.udevRules == settings.runOnWifiConnect
    ensures r.files.menuInstalled == files.menuInstalled
    ensures r.error.None? ==>
      && r.useNickelDbus == installed
      && r.files.udevRules == settings.runOnWifiConnect
      && r.files.menuConfig == (files.menuInstalled && settings.createNickelMenuEntry)
  {
    match PrepareNickelDbusIntegration(installed, version)
    case Err(e) => Prerequisites(false, files, Some(e))
    case Ok(probe) =>
      var wifi := PrepareWifiTrigger(files, settings.runOnWifiConnect, ops);
      if wifi.error.Some? then Prerequisites(probe.useNickelDbus, wifi.files, wifi.error)
      else
        var menu := PrepareNickelMenuIntegration(wifi.files, settings.createNickelMenuEntry, ops);
        Prerequisites(probe.useNickelDbus, menu.files, menu.error)
  }

  /** Preparing again after a success changes nothing and fails nothing,
      whatever the file operations would do. */
  lemma {:induction false} PreparePrerequisitesIdempotent(installed: bool, version: Result<string>, files: Files, settings: Settings, ops: FileOps, ops2: FileOps)
    requires PreparePrerequisites(installed, version, files, settings, ops).error.None?
    ensures var once := PreparePrerequisites(installed, version, files, settings, ops);
      PreparePrerequisites(installed, version, once.files, settings, ops2) == once
  {
    var once := PreparePrerequisites(installed, version, files, settings, ops);
    var wifi := PrepareWifiTrigger(once.files, settings.runOnWifiConnect, ops2);
    assert wifi == Prepared(once.files, None);
    var menu := PrepareNickelMenuIntegration(wifi.files, settings.createNickelMenuEntry, ops2);
    assert menu == Prepared(once.files, None);
  }

  // ---------------------------------------------------------------------
  // Legacy version

  const ExecutionTypeAuto := "auto"
  const ExecutionTypeManual := "manual"

  /** Legacy `preparePrerequisites`. Auto mode: deploy the rules if absent,
      then delete the menu entry when NickelMenu is installed and the entry
      exists. Manual mode: fail with no change without NickelMenu, else
      deploy the entry if absent and remove the rules if present. Any other
      execution type: nothing. */
  function LegacyPreparePrerequisites(executionType: string, files: Files, ops: FileOps): (r: Prepared)
    ensures r.files.menuInstalled == files.menuInstalled
    ensures executionType == ExecutionTypeAuto && r.error.None? ==>
      r.files.udevRules && (r.files.menuConfig <==> files.menuConfig && !files.menuInstalled)
    ensures executionType == ExecutionTypeManual && !files.menuInstalled ==>
      r == Prepared(files, Some(ManualNeedsMenu))
    ensures executionType == ExecutionTypeManual && r.error.None? ==>
      r.files.menuConfig && !r.files.udevRules
    ensures executionType != ExecutionTypeAuto && executionType != ExecutionTypeManual ==>
      r == Prepared(files, None)
  {
    if executionType == ExecutionTypeAuto then
      var rules := if !files.udevRules then DeployRules(files, ops) else Prepared(files, None);
      if rules.error.Some? then rules
      else if files.menuInstalled && rules.files.menuConfig then DeleteMenu(rules.files, ops)
      else rules
    else if executionType == ExecutionTypeManual then
      if !files.menuInstalled then Prepared(files, Some(ManualNeedsMenu))
      else
        var menu := if !files.menuConfig then DeployMenu(files, ops) else Prepared(files, None);
        if menu.error.Some? then menu
        else if menu.files.udevRules then DeleteRules(menu.files, ops)
        else menu
    else Prepared(files, None)
  }

  /** The legacy gate: NickelDbus is used only when installed AND its
      version is exactly the desired one; a version read error is fatal. */
  function LegacyUseNickelDbus(installed: bool, version: Result<string>): (r: Result<bool>)
    ensures r.Err? <==> installed && version.Err?
    ensures r.Ok? ==> (r.value <==> installed && version == Ok(DesiredVersion))
  {
    if installed then
      match version
      case Err(e) => Err(e)
      case Ok(v) => Ok(v == DesiredVersion)
    else Ok(false)
  }

  /** The two versions disagree exactly on an installed NickelDbus of
      another version: the current one uses it, the legacy one does not. */
  lemma GatesDiffer(installed: bool, version: Result<string>)
    requires version.Ok?
    ensures PrepareNickelDbusIntegration(installed, version).Ok? && LegacyUseNickelDbus(installed, version).Ok?
    ensures PrepareNickelDbusIntegration(installed, version).value.useNickelDbus != LegacyUseNickelDbus(installed, version).value
      <==> installed && version.value != DesiredVersion
  {
  }
}

=== FILE: search.dfy ===
/** The IMAP search criteria KoboMail builds in `Run` (internal/kobomail/main.go)
    and in the legacy `main` (kobomail.go): an optional "not \Seen" flag
    constraint and at most one header matcher, either the plus-tagged
    recipient address or the subject tag. */
module Search {
  import opened Strings

  datatype HeaderField = HeaderField(key: string, value: string)

  /** The parts of go-imap's `SearchCriteria` KoboMail sets. */
  datatype Criteria = Criteria(withoutFlags: seq<string>, header: seq<HeaderField>)

  /** `imap.NewSearchCriteria()`: no constraint at all. */
  function NewSearchCriteria(): (c: Criteria)
    ensures c.withoutFlags == [] && c.header == []
  {
    Criteria([], [])
  }

  const SeenFlag := "\\Seen"
  const FlagTypePlus := "plus"
  const FlagTypeSubject := "subject"
  const ToKey := "TO"
  const SubjectKey := "SUBJECT"

  /** `i` is the position of the first '@' of `user`. */
  predicate FirstAt(user: string, i: nat)
  {
    i < |user| && user[i] == '@' && Free(user[..i], '@')
  }

  /** The sub-addressed recipient: `strings.Replace(user, "@", "+"+flag+"@", 1)`. */
  function TaggedAddress(user: string, flag: string): string
  {
    ReplaceFirst(user, '@', "+" + flag + "@")
  }

  lemma FirstAtIsIndexOf(user: string, i: nat)
    requires FirstAt(user, i)
    ensures IndexOf(user, '@') == i
  {
    var j := IndexOf(user, '@');
    assert forall k :: 0 <= k < i ==> user[..i][k] == user[k];
    assert forall k :: 0 <= k < j ==> user[..j][k] == user[k];
  }

  /** The tag goes in front of the first '@' only; the rest of the address,
      later '@'s included, is untouched. */
  lemma TaggedAddressInsertsTag(user: string, flag: string, i: nat)
    requires FirstAt(user, i)
    ensures TaggedAddress(user, flag) == user[..i] + "+" + flag + user[i..]
  {
    FirstAtIsIndexOf(user, i);
    assert user[i..] == "@" + user[i + 1..];
  }

  /** A user without '@' is searched for verbatim. */
  lemma TaggedAddressWithoutAt(user: string, flag: string)
    requires Free(user, '@')
    ensures TaggedAddress(user, flag) == user
  {
  }

  /** Round trip: cutting the inserted "+flag" back out gives the user. */
  lemma RemovingTagRestoresUser(user: string, flag: string, i: nat)
    requires FirstAt(user, i)
    ensures var a := TaggedAddress(user, flag);
      |a| == |user| + 1 + |flag| && a[..i] + a[i + 1 + |flag|..] == user
  {
    TaggedAddressInsertsTag(user, flag, i);
    var a := TaggedAddress(user, flag);
    assert a[..i] == user[..i];
    assert a[i + 1 + |flag|..] == user[i..];
    assert user[..i] + user[i..] == user;
  }

  /** The criteria `Run` searches with: `unseen` replaces the excluded flags
      by exactly `\Seen`; the plus flag type adds a TO header with the tagged
      address, the subject flag type a SUBJECT header with the flag
      verbatim, any other flag type adds nothing. */
  function WithFlagCriteria(base: Criteria, unseen: bool, flagType: string, flag: string, user: string): (c: Criteria)
    ensures c.withoutFlags == (if unseen then [SeenFlag] else base.withoutFlags)
    ensures |base.header| <= |c.header| <= |base.header| + 1
    ensures c.header[..|base.header|] == base.header
    ensures |c.header| > |base.header| <==> flagType == FlagTypePlus || flagType == FlagTypeSubject
    ensures flagType == FlagTypePlus ==>
      |c.header| > |base.header| && c.header[|base.header|] == HeaderField(ToKey, TaggedAddress(user, flag))
    ensures flagType == FlagTypeSubject ==>
      |c.header| > |base.header| && c.header[|base.header|] == HeaderField(SubjectKey, flag)
  {
    var flags := if unseen then [SeenFlag] else base.withoutFlags;
    if flagType == FlagTypePlus then
      Criteria(flags, base.header + [HeaderField(ToKey, TaggedAddress(user, flag))])
    else if flagType == FlagTypeSubject then
      Criteria(flags, base.header + [HeaderField(SubjectKey, flag)])
    else Criteria(flags, base.header)
  }

  predicate HasKey(c: Criteria, key: string)
  {
    exists k :: 0 <= k < |c.header| && c.header[k].key == key
  }

  /** Starting from fresh criteria, the TO and SUBJECT matchers never appear
      together. */
  lemma {:induction false} MatchersMutuallyExclusive(unseen: bool, flagType: string, flag: string, user: string)
    ensures var c := WithFlagCriteria(NewSearchCriteria(), unseen, flagType, flag, user);
      |c.header| <= 1 && !(HasKey(c, ToKey) && HasKey(c, SubjectKey))
  {
    var c := WithFlagCriteria(NewSearchCriteria(), unseen, flagType, flag, user);
    assert ToKey != SubjectKey by { assert ToKey[0] != SubjectKey[0]; }
    if |c.header| == 1 {
      assert HasKey(c, ToKey) ==> c.header[0].key == ToKey;
      assert HasKey(c, SubjectKey) ==> c.header[0].key == SubjectKey;
    }
  }
}

=== FILE: session.dfy ===
/** The mailbox session of KoboMail (pkg/imap/connection.go): the dial retry
    loop, the connection record, message collection and deletion.

    TLS, the IMAP wire protocol and go-imap's client are not modelled. Each
    dial attempt's outcome is given by a function of the attempt number, the
    server's SEARCH and FETCH answers are given outcomes, and the server's
    flag state is a map from sequence number to flag set. */
module Session {
  import opened Outcomes
  import opened Attachments
  import opened Search

  /** An opaque handle for a dialled client connection. */
  datatype Client = Client(id: nat)

  datatype DialOutcome = Dialled(client: Client) | DialFailed(reason: string)

  /** What the retry loop does, in order: a dial, or a one-second sleep. */
  datatype DialStep = Attempt | Pause(seconds: nat)

  const MaxRetries := 3
  const MaxDialAttempts := 1 + MaxRetries
  const RetryDelaySeconds := 1

  /** `attempts` dials with one pause between consecutive ones. */
  function DialTrace(attempts: nat): seq<DialStep>
    requires attempts >= 1
  {
    if attempts == 1 then [Attempt] else DialTrace(attempts - 1) + [Pause(RetryDelaySeconds), Attempt]
  }

  /** `connect`: one dial, then while it fails up to three retries, each
      after a one-second sleep; stops at the first success and otherwise
      returns the last dial error. */
  method Connect(dial: nat -> DialOutcome) returns (client: Result<Client>, attempts: nat, trace: seq<DialStep>)
    ensures 1 <= attempts <= MaxDialAttempts
    ensures trace == DialTrace(attempts)
    ensures forall k :: 0 <= k < attempts - 1 ==> dial(k).DialFailed?
    ensures client.Ok? ==> dial(attempts - 1) == Dialled(client.value)
    ensures client.Err? ==> attempts == MaxDialAttempts && dial(MaxDialAttempts - 1) == DialFailed(client.error)
    ensures client.Ok? <==> exists k :: 0 <= k < MaxDialAttempts && dial(k).Dialled?
  {
    var numRetries := MaxRetries;
    attempts := 1;
    trace := [Attempt];
    var outcome := dial(0);
    if outcome.DialFailed? {
      while numRetries > 0
        invariant 0 <= numRetries <= MaxRetries
        invariant attempts == 1 + MaxRetries - numRetries
        invariant trace == DialTrace(attempts)
        invariant outcome == dial(attempts - 1)
        invariant forall k :: 0 <= k < attempts ==> dial(k).DialFailed?
      {
        trace := trace + [Pause(RetryDelaySeconds), Attempt];
        attempts := attempts + 1;
        outcome := dial(attempts - 1);
        if outcome.DialFailed? {
          numRetries := numRetries - 1;
        } else {
          break;
        }
      }
      if outcome.DialFailed? {
        client := Err(outcome.reason);
        return;
      }
    }
    client := Ok(outcome.client);
  }

  /** The session record: server address, the dialled client and the
      current search criteria. */
  datatype Connection = Connection(host: string, port: int, client: Client, criteria: Criteria)

  /** `ConnectToServer`: a connection with the given host and port, the
      dialled client and fresh, empty criteria; no connection when every
      attempt failed. */
  method ConnectToServer(host: string, port: int, dial: nat -> DialOutcome) returns (conn: Result<Connection>)
    ensures conn.Ok? ==>
      (exists k :: 0 <= k < MaxDialAttempts && dial(k) == Dialled(conn.value.client))
      && conn.value == Connection(host, port, conn.value.client, NewSearchCriteria())
    ensures conn.Err? <==> forall k :: 0 <= k < MaxDialAttempts ==> dial(k).DialFailed?
    ensures conn.Err? ==> dial(MaxDialAttempts - 1) == DialFailed(conn.error)
  {
    var client, attempts, _ := Connect(dial);
    if client.Err? {
      conn := Err(client.error);
    } else {
      conn := Ok(Connection(host, port, client.value, NewSearchCriteria()));
      assert dial(attempts - 1).Dialled?;
    }
  }

  /** One `*imap.Message` as the fetch delivered it. */
  datatype Fetched = Fetched(seqNum: nat, body: Option<Body>)

  /** The FETCH answer: the messages delivered on the channel (nil ones
      included) and the error the fetch goroutine reported. */
  datatype FetchOutcome = FetchOutcome(delivered: seq<Option<Fetched>>, error: Option<string>)

  /** What `CollectMessages` returns, plus the sequence numbers a fetch was
      issued for (None when no fetch was issued). */
  datatype Collection = Collection(messages: seq<Message>, error: Option<string>, fetchRequest: Option<seq<nat>>)

  /** The delivered messages, nils dropped, wrapped with no cached reader. */
  function KeepDelivered(delivered: seq<Option<Fetched>>): (ms: seq<Message>)
    ensures |ms| <= |delivered|
    ensures forall m :: m in ms ==> m.reader.None?
    ensures forall k :: 0 <= k < |delivered| && delivered[k].Some? ==>
      Collected(delivered[k].value.seqNum, delivered[k].value.body) in ms
    ensures forall m :: m in ms ==> Some(Fetched(m.seqNum, m.body)) in delivered
    ensures (forall k :: 0 <= k < |delivered| ==> delivered[k].Some?) ==>
      |ms| == |delivered| &&
      forall k :: 0 <= k < |delivered| ==> ms[k] == Collected(delivered[k].value.seqNum, delivered[k].value.body)
  {
    if |delivered| == 0 then []
    else
      var rest := KeepDelivered(delivered[1..]);
      assert forall k :: 1 <= k < |delivered| ==> delivered[k] == delivered[1..][k - 1];
      match delivered[0]
      case None => rest
      case Some(f) => [Collected(f.seqNum, f.body)] + rest
  }

  /** `CollectMessages`: a search error is returned before any fetch;
      otherwise the searched messages are fetched and every non-nil one is
      kept in arrival order, and the fetch error is never surfaced. */
  function CollectMessages(search: Result<seq<nat>>, fetch: FetchOutcome): (r: Collection)
    ensures search.Err? ==> r.fetchRequest.None? && r.error == Some(search.error) && r.messages == []
    ensures search.Ok? ==> r.fetchRequest == Some(search.value) && r.error.None?
    ensures search.Ok? ==> r.messages == KeepDelivered(fetch.delivered)
  {
    match search
    case Err(e) => Collection([], Some(e), None)
    case Ok(seqNums) => Collection(KeepDelivered(fetch.delivered), None, Some(seqNums))
  }

  /** Nil deliveries change nothing. */
  lemma {:induction false} NilDeliveriesDropped(a: seq<Option<Fetched>>, b: seq<Option<Fetched>>)
    ensures KeepDelivered(a + [None] + b) == KeepDelivered(a + b)
    decreases |a|
  {
    if |a| == 0 {
      assert a + [None] + b == [None] + b;
      assert ([None] + b)[1..] == b;
      assert a + b == b;
    } else {
      assert (a + [None] + b)[1..] == a[1..] + [None] + b;
      assert (a + b)[1..] == a[1..] + b;
      NilDeliveriesDropped(a[1..], b);
    }
  }

  const DeletedFlag := "\\Deleted"

  /** The server's flag state: sequence number to flags. */
  type Mailbox = map<nat, set<string>>

  datatype Deletion = Deletion(error: Option<string>, mailbox: Mailbox, stored: Option<nat>)

  /** `DeleteMessage`: nil is a no-op; otherwise one STORE +FLAGS (\Deleted)
      for exactly the message's sequence number, with no expunge. A failed
      STORE returns its error and leaves the flags as they were. */
  function DeleteMessage(mailbox: Mailbox, msg: Option<Message>, storeError: Option<string>): (r: Deletion)
    ensures msg.None? ==> r == Deletion(None, mailbox, None)
    ensures msg.Some? ==> r.stored == Some(msg.value.seqNum) && r.error == storeError
    ensures r.mailbox.Keys == mailbox.Keys
    ensures forall n :: n in mailbox && (msg.None? || n != msg.value.seqNum) ==> r.mailbox[n] == mailbox[n]
    ensures msg.Some? && storeError.None? && msg.value.seqNum in mailbox ==>
      r.mailbox[msg.value.seqNum] == mailbox[msg.value.seqNum] + {DeletedFlag}
    ensures storeError.Some? ==> r.mailbox == mailbox
  {
    match msg
    case None => Deletion(None, mailbox, None)
    case Some(m) =>
      if storeError.Some? then Deletion(storeError, mailbox, Some(m.seqNum))
      else if m.seqNum in mailbox then
        Deletion(None, mailbox[m.seqNum := mailbox[m.seqNum] + {DeletedFlag}], Some(m.seqNum))
      else Deletion(None, mailbox, Some(m.seqNum))
  }
}

=== FILE: strings.dfy ===
/** The part of Go's `strings` package that KoboMail relies on, over
    `seq<char>`: first-index search, single replacement, join and split on a
    one-character separator, and occurrence counting. */
module Strings {

  /** No occurrence of `c` in `s`. */
  predicate Free(s: string, c: char)
  {
    forall k :: 0 <= k < |s| ==> s[k] != c
  }

  /** Position of the first `c` in `s`, or `|s|` when `s` has none. */
  function IndexOf(s: string, c: char): (i: nat)
    ensures i <= |s|
    ensures i < |s| ==> s[i] == c
    ensures Free(s[..i], c)
  {
    if |s| == 0 then 0
    else if s[0] == c then 0
    else 1 + IndexOf(s[1..], c)
  }

  /** Go's `strings.Replace(s, [c], rep, 1)`: only the first `c` is replaced. */
  function ReplaceFirst(s: string, c: char, rep: string): string
  {
    var i := IndexOf(s, c);
    if i == |s| then s else s[..i] + rep + s[i + 1..]
  }

  /** Go's `strings.Join(parts, [sep])`. */
  function Join(parts: seq<string>, sep: char): string
  {
    if |parts| == 0 then ""
    else if |parts| == 1 then parts[0]
    else parts[0] + [sep] + Join(parts[1..], sep)
  }

  /** Go's `strings.Split(s, [sep])`: the pieces between separators, never empty. */
  function Split(s: string, sep: char): (pieces: seq<string>)
    ensures |pieces| > 0
    decreases |s|
  {
    var i := IndexOf(s, sep);
    if i == |s| then [s] else [s[..i]] + Split(s[i + 1..], sep)
  }

  /** Number of occurrences of `c` in `s`. */
  function Count(s: string, c: char): nat
  {
    if |s| == 0 then 0 else (if s[0] == c then 1 else 0) + Count(s[1..], c)
  }

  lemma {:induction false} CountAppend(a: string, b: string, c: char)
    ensures Count(a + b, c) == Count(a, c) + Count(b, c)
    decreases |a|
  {
    if |a| > 0 {
      assert (a + b)[1..] == a[1..] + b;
      CountAppend(a[1..], b, c);
    } else {
      assert a + b == b;
    }
  }

  lemma CountFree(s: string, c: char)
    requires Free(s, c)
    ensures Count(s, c) == 0
  {
    if |s| > 0 {
      assert Free(s[1..], c);
      CountFree(s[1..], c);
    }
  }
}

=== FILE: udev.dfy ===
/** The udev rules file of KoboMail (pkg/udev): the rules joined one per
    line, each line ending in a newline. */
module Udev {
  import opened Strings

  const Newline := '\n'

  /** Where the rules file is deployed. */
  const RulesFilePath := "/etc/udev/rules.d/97-kobomail.rules"

  /** `generateFile`: the rules joined by newlines, plus a final newline. */
  function GenerateFile(rules: seq<string>): (file: string)
    ensures |file| > 0 && file[|file| - 1] == Newline
    ensures |rules| == 0 ==> file == [Newline]
    ensures |rules| == 1 ==> file == rules[0] + [Newline]
  {
    Join(rules, Newline) + [Newline]
  }

  /** Every rule is a single line. */
  predicate SingleLines(rules: seq<string>)
  {
    forall k :: 0 <= k < |rules| ==> Free(rules[k], Newline)
  }

  lemma SplitAtFirst(a: string, b: string, sep: char)
    requires Free(a, sep)
    ensures Split(a + [sep] + b, sep) == [a] + Split(b, sep)
  {
    var s := a + [sep] + b;
    var i := IndexOf(s, sep);
    assert s[|a|] == sep;
    assert forall k :: 0 <= k < |a| ==> s[k] == a[k];
    assert i == |a|;
    assert s[..i] == a;
    assert s[i + 1..] == b;
  }

  /** One step of the induction: the first part splits off the joined
      text. */
  lemma SplitJoinStep(parts: seq<string>, b: string, sep: char)
    requires |parts| > 1 && Free(parts[0], sep)
    ensures Split(Join(parts, sep) + [sep] + b, sep) == [parts[0]] + Split(Join(parts[1..], sep) + [sep] + b, sep)
  {
    var p := parts[0];
    var tail := Join(parts[1..], sep) + [sep] + b;
    assert Join(parts, sep) + [sep] + b == p + [sep] + tail;
    SplitAtFirst(p, tail, sep);
  }

  lemma TailFree(parts: seq<string>, sep: char)
    requires |parts| > 0
    requires forall k :: 0 <= k < |parts| ==> Free(parts[k], sep)
    ensures forall k :: 0 <= k < |parts| - 1 ==> Free(parts[1..][k], sep)
  {
    assert forall k :: 0 <= k < |parts| - 1 ==> parts[1..][k] == parts[k + 1];
  }

  lemma {:induction false} SplitJoinThen(parts: seq<string>, b: string, sep: char)
    requires |parts| > 0
    requires forall k :: 0 <= k < |parts| ==> Free(parts[k], sep)
    ensures Split(Join(parts, sep) + [sep] + b, sep) == parts + Split(b, sep)
    decreases |parts|
  {
    if |parts| == 1 {
      SplitAtFirst(parts[0], b, sep);
    } else {
      var rest := parts[1..];
      TailFree(parts, sep);
      SplitJoinThen(rest, b, sep);
      SplitJoinStep(parts, b, sep);
      assert [parts[0]] + (rest + Split(b, sep)) == parts + Split(b, sep);
    }
  }

  /** Splitting the file at newlines gives back the rules, followed by the
      empty piece after the final newline. */
  lemma SplitRecoversRules(rules: seq<string>)
    requires SingleLines(rules)
    ensures Split(GenerateFile(rules), Newline) == (if |rules| == 0 then [""] else rules) + [""]
  {
    assert Split("", Newline) == [""];
    if |rules| == 0 {
      assert GenerateFile(rules) == "" + [Newline] + "";
      SplitAtFirst("", "", Newline);
    } else {
      assert GenerateFile(rules) == Join(rules, Newline) + [Newline] + "";
      SplitJoinThen(rules, "", Newline);
    }
  }

  lemma {:induction false} JoinCount(parts: seq<string>, sep: char)
    requires |parts| > 0
    requires forall k :: 0 <= k < |parts| ==> Free(parts[k], sep)
    ensures Count(Join(parts, sep), sep) == |parts| - 1
    decreases |parts|
  {
    CountFree(parts[0], sep);
    if |parts| > 1 {
      JoinCount(parts[1..], sep);
      CountAppend(parts[0], [sep], sep);
      CountAppend(parts[0] + [sep], Join(parts[1..], sep), sep);
      assert Count([sep], sep) == 1 by {
        assert [sep][1..] == [];
      }
    }
  }

  /** One newline per rule: the file has exactly as many lines as rules
      (and a single empty line when there are none). */
  lemma LineCount(rules: seq<string>)
    requires SingleLines(rules)
    ensures Count(GenerateFile(rules), Newline) == if |rules| == 0 then 1 else |rules|
  {
    assert Count([Newline], Newline) == 1 by {
      assert [Newline][1..] == [];
    }
    if |rules| > 0 {
      JoinCount(rules, Newline);
    }
    CountAppend(Join(rules, Newline), [Newline], Newline);
  }

  lemma {:induction false} JoinAppend(a: seq<string>, b: seq<string>, sep: char)
    requires |a| > 0 && |b| > 0
    ensures Join(a + b, sep) == Join(a, sep) + [sep] + Join(b, sep)
    decreases |a|
  {
    if |a| == 1 {
      assert (a + b)[1..] == b;
    } else {
      assert (a + b)[1..] == a[1..] + b;
      JoinAppend(a[1..], b, sep);
    }
  }

  /** Files compose: the file of two rule lists is the two files one after
      the other. */
  lemma FilesConcatenate(a: seq<string>, b: seq<string>)
    requires |a| > 0 && |b| > 0
    ensures GenerateFile(a + b) == GenerateFile(a) + GenerateFile(b)
  {
    JoinAppend(a, b, Newline);
  }

  // ---------------------------------------------------------------------
  // The rules KoboMail deploys

  const LauncherRun := "RUN+=\"/usr/local/kobomail/kobomail_launcher.sh"
  const ConfigSetupRun := "RUN+=\"/usr/local/kobomail/kobomail_config_setup.sh\""

  /** The rules as written: the first rule's RUN value has no closing
      quote. */
  const KoboMailRulesAsWritten: seq<string> := [
    "KERNEL==\"eth*\", ACTION==\"add\", " + LauncherRun,
    "KERNEL==\"wlan*\", ACTION==\"add\", " + LauncherRun + "\"",
    "KERNEL==\"lo\", " + ConfigSetupRun
  ]

  /** The rules as intended: every RUN value quoted. */
  const KoboMailRules: seq<string> := [
    "KERNEL==\"eth*\", ACTION==\"add\", " + LauncherRun + "\"",
    "KERNEL==\"wlan*\", ACTION==\"add\", " + LauncherRun + "\"",
    "KERNEL==\"lo\", " + ConfigSetupRun
  ]

  /** A rule whose last value is closed by a quote. */
  predicate Terminated(rule: string)
  {
    |rule| > 0 && rule[|rule| - 1] == '"'
  }

  /** As written, the Ethernet rule ends inside its RUN value, unlike the
      Wi-Fi rule it mirrors. */
  lemma AsWrittenEthernetRuleUnterminated()
    ensures !Terminated(KoboMailRulesAsWritten[0])
    ensures Terminated(KoboMailRulesAsWritten[1])
  {
    var eth := KoboMailRulesAsWritten[0];
    assert eth[|eth| - 1] == 'h';
  }

  /** The corrected rules are all terminated and differ from the written
      ones only in the Ethernet rule's closing quote. */
  lemma CorrectedRulesTerminated()
    ensures forall k :: 0 <= k < |KoboMailRules| ==> Terminated(KoboMailRules[k])
    ensures KoboMailRules[0] == KoboMailRulesAsWritten[0] + "\""
    ensures KoboMailRules[1..] == KoboMailRulesAsWritten[1..]
  {
    var r := KoboMailRules;
    assert r[0][|r[0]| - 1] == '"';
    assert r[1][|r[1]| - 1] == '"';
    assert r[2][|r[2]| - 1] == '"';
  }
}
